=== FILE: README.md ===
# Novelest manuscript bookkeeping in Dafny

Novelest is a GTK writing application. Its window keeps a manuscript in
memory as a document record. The record holds the title, author, file name
and word-count target, a map from chapter ids to chapters, and the chapter
order. Next to it the window keeps a list store of organizer rows. Each row
has a title, an include flag and a chapter id. The editor buffer shows one
chapter's text.

This project models that bookkeeping as an immutable `Session` record with
pure transition functions, one per handler:

- the new-chapter, delete and include-toggle handlers of the organizer;
- the selection-changed handler, which flushes the buffer into the chapter
  selected before;
- `save` and `open`, reduced to the document value written or read;
- the new-project dialog and its digit-only target field;
- the word count behind the progress bar;
- the `.novelest` file-name test and normalisation.

Modules:

- `Wrappers`: `Option`.
- `Encoding`: JavaScript's UTF-16 length next to the UTF-8 byte count that
  `gtk_text_buffer_set_text` reads its length argument as, and the text a
  load leaves in the buffer.
- `Text`: the JavaScript string primitives the window relies on, as pure
  functions. These are `split` on one character, `indexOf`, decimal
  formatting and `parseInt`.
- `FileNames`: `isNovelestFile` and the extension normalisation.
- `Manuscript`: the data model (`Chapter`, `Row`, `Target`, `Document`,
  `Session`), the well-formedness invariant `Wf`, and the start-up state.
- `WordCount`: per-body word count and the total over every stored chapter.
- `Organizer`: the organizer handlers.
- `TargetFilter`: the `insert-text` filter of the target field, and the
  value `parseInt` reads from it.
- `Persistence`: `save`, `open` and the new-project dialog.
- `Findings`: three places where the handlers as written lose the user's work,
  each next to a corrected handler.

A list-store iterator is modelled as an index into the row sequence. The
remembered row follows its row when an earlier row is removed. It becomes
`None` when its own row is removed or the store is cleared.

A handler that throws part-way through keeps the effects it had before the
throw and nothing after. Three places matter:

- If the remembered row is valid but nothing is selected, or the selected
  id is not stored, the selection-changed handler throws before any write,
  so the model changes nothing. In particular, the remembered row is not
  updated.
- If the remembered row's id is not stored, the handler has already loaded
  the new body into the buffer when it throws, so only the buffer changes.
- `save` without a selected row throws after `order` has been rebuilt, so
  the order is kept and nothing is written.

## Model

| member | source | states |
|---|---|---|
| Text.JoinSplit | src/window.js:38 | joining the pieces of `split` with the separator gives back the original string |
| Text.SplitJoin | src/window.js:336 | splitting a join of separator-free pieces gives back exactly those pieces |
| Text.Split | src/window.js:336 | `split` on one character yields one piece more than the separator occurs, and no piece contains the separator |
| Text.LastPieceIsSuffix | src/window.js:38 | the last piece of `split` is the suffix after the final separator: it contains no separator and is preceded by one unless it is the whole string |
| Text.LastPieceUnique | src/window.js:38 | only one suffix has the final-piece property, so the last piece is characterised independently of `split` |
| Text.LastPieceAfterSeparator | src/window.js:38 | for `x + sep + y` with no separator in `y`, the last piece is `y`, whatever `x` holds |
| Text.LastPiece | src/window.js:38 | the last element of `split`: it never contains the separator, and it is the whole string when the separator does not occur |
| Text.IndexOf | src/window.js:274 | `indexOf` from the start: the first occurrence of the needle, and -1 exactly when it occurs nowhere |
| Text.NatToString | src/window.js:118 | the decimal spelling written by the template literal: non-empty, digits only, and with no leading zero except for 0 itself |
| Text.IndexOfFrom | src/window.js:274 | `indexOf` returns the least position where the needle occurs, and -1 exactly when it occurs nowhere |
| Text.ParseInt | src/window.js:284 | `parseInt` gives a number exactly when the text starts with a digit, and the decimal value of an all-digit text, as an exact natural |
| Text.ParseIntOfNatToString | src/window.js:284 | `parseInt` reads back every number written in decimal, with exact arithmetic (JavaScript agrees below 2^53) |
| Text.NatToStringInjective | src/window.js:118 | distinct numbers have distinct decimal spellings |
| FileNames.IsNovelestFile | src/window.js:37-39 | the last dot-separated segment is `novelest`, so a passing name ends with `novelest` |
| FileNames.IsNovelestFileIff | src/window.js:37-39 | a name passes exactly when it is `novelest` itself or ends with `.novelest` |
| FileNames.DecidedByLastSegment | src/window.js:37-39 | `stem.ext` passes exactly when `ext` is `novelest`, whatever the stem holds |
| FileNames.DotlessName | src/window.js:37-39 | a name without a dot passes only if it is `novelest`, and otherwise normalises by appending `.novelest` |
| FileNames.Normalize | src/window.js:306-309 | the result always passes; it equals the chosen name exactly when that name already passes, and otherwise is the name plus `.novelest` |
| FileNames.NormalizeIdempotent | src/window.js:306-309 | normalising twice is the same as normalising once |
| FileNames.NormalizeAppendsExample | src/window.js:306-309 | `x.txt` becomes `x.txt.novelest`: the extension is appended, never substituted |
| FileNames.NormalizeKeepsExample | src/window.js:306-309 | `x.novelest` is kept, while `x.novelest.bak` fails the test |
| Manuscript.Initial | src/window.js:350-360 | the start-up state is well formed, with no rows, no chapters, and the editor and delete button disabled |
| WordCount.Words | src/window.js:335-336 | a body counts 0 words exactly when it is empty, and otherwise one more than its spaces |
| WordCount.WordsOfJoin | src/window.js:336 | `k` space-free words joined by single spaces count as `k` words |
| WordCount.WordsExamples | src/window.js:335-336 | the empty body counts 0, a lone space counts 2, `a b` counts 2 and `a  b` counts 3 |
| WordCount.SumWordsRemove | src/window.js:334-337 | the total does not depend on the order the chapters are visited in: any chapter can be taken out first |
| WordCount.TotalWordsUpdate | src/window.js:331-340 | storing a chapter changes the total by its words minus the words of the body it replaces |
| WordCount.TotalWordCount | src/window.js:331-340 | the loop over every stored chapter computes the total, which bounds every single chapter's count |
| Organizer.ChapterTitle | src/window.js:118 | the default title is `Chapter ` followed by the counter's canonical decimal digits (no leading zero), which `parseInt` reads back as the counter |
| Organizer.ChapterTitleInjective | src/window.js:118 | different counter values give different default titles |
| Organizer.NewChapter | src/window.js:111-127 | appends one row `(Chapter n, true, id)` at the end, stores an empty included chapter under the fresh id, leaves every other row and chapter unchanged, bumps the counter by one, enables the editor and delete button, keeps the total word count, and preserves `Wf` and distinct row ids |
| Organizer.AppendRowKeepsWf | src/window.js:115-123 | a row appended for a freshly stored chapter of the same title keeps the session well formed and the row ids distinct |
| Organizer.NewChapterNeverReusesCounter | src/window.js:111-118 | two chapters created in a row have different ids and different titles |
| Organizer.ToggleInclude | src/window.js:86-92 | flips the flag of the row at the path and nothing else; a path without a row changes nothing |
| Organizer.ToggleIncludeTwice | src/window.js:86-92 | toggling the same row twice restores the session |
| Organizer.PreviousAfterRemove | src/window.js:138 | the remembered row is lost exactly when its own row is removed, and moves up one place when a row above it goes |
| Organizer.RemoveRow | src/window.js:138 | removing row `i` keeps the rows above it and shifts the rows below it up by one, keeping ids distinct |
| Organizer.RowIdsRemove | src/window.js:138 | the ids after the removal are the old ids with the `i`-th one taken out |
| Organizer.RemoveRowMultiset | src/window.js:138 | exactly the removed row leaves the multiset of rows |
| Organizer.RemoveRowKeepsWf | src/window.js:138 | the removal keeps the session well formed, and a surviving remembered row is still the same row |
| Organizer.DeleteSelected | src/window.js:131-145 | removes only the selected row, keeps the other rows in order and leaves the chapters untouched; clears the buffer and disables the editor and delete button exactly when no row is left; the remembered row is lost if it was the deleted one and moves up one place if it was below it; preserves `Wf` |
| Organizer.DeleteKeepsOrder | src/window.js:131-145 | the remaining row ids are the old ones in the same relative order, and the rows are a permutation of the old ones minus the deleted row |
| Organizer.DeleteMiddleOfThree | src/window.js:131-145 | deleting the middle of three rows leaves the outer two in order |
| Organizer.CreateThreeDeleteSecond | src/window.js:111-145 | creating three chapters and deleting the second leaves the first and third rows, while all three chapters stay stored |
| Organizer.Selected | src/window.js:167 | the remembered selection is the selected row when there is one and nothing otherwise |
| Organizer.SelectionChanged | src/window.js:149-171 | with a valid remembered row: the buffer gets what `set_text(body, body.length)` loads from the new chapter's stored body (`Encoding.Loaded`: the whole body exactly when it is ASCII); the old chapter gets the buffer text, the row title and the row flag under `included`; every other chapter is unchanged. Without one: nothing is flushed, the buffer is untouched and the new selection is remembered. Preserves `Wf` |
| Organizer.FlushWordCount | src/window.js:159-168 | a flush changes the total by the buffer's words minus the words of the body it overwrites |
| Organizer.SwitchAwayAndBack | src/window.js:149-171 | switching to another chapter and straight back stores the buffer as the first chapter's body; the buffer comes back whole exactly when it is ASCII, and the other chapter's body survives exactly when it is ASCII (otherwise each is cut to what the load keeps) |
| Organizer.NewChapterSelected | src/window.js:112-127 | the new chapter becomes the remembered row; the buffer is emptied and the old text flushed when a row was remembered, and kept otherwise |
| Persistence.Save | src/window.js:183-194 | `order` becomes the row ids top to bottom; a document is written exactly when a row is selected, with only that chapter's body replaced by the buffer; preserves `Wf` |
| Persistence.SaveIdempotent | src/window.js:183-194 | saving again straight away writes the same document and changes nothing more |
| Persistence.RowsFor | src/window.js:237-241 | row `i` is `(chapters[order[i]].title, chapters[order[i]].include, order[i])` |
| Persistence.Open | src/window.js:213-242 | a passing name replaces the document, rebuilds the rows from `order`, forgets the remembered row, enables the editor exactly when some chapter is stored, and leaves the buffer alone; a failing name changes nothing |
| Persistence.SaveThenOpen | src/window.js:183-242 | opening the written document value restores the row ids in order, their titles, and that whole document value |
| Persistence.SaveWritesBack | src/window.js:183-194 | when the rows spell the stored order and the buffer holds the selected chapter's stored body, `save` writes back exactly the stored document |
| Persistence.OpenThenSave | src/window.js:183-242 | opening a document and saving it with the buffer matching the selected chapter writes back the same document |
| Persistence.NewProject | src/window.js:279-309 | title and author are taken as typed; the target is NaN for an empty field and the decimal value otherwise; the file name passes the test and is the chosen name exactly when that one already passes |
| Persistence.NewProjectWritesNothing | src/window.js:309-311 | the save right after the dialog writes nothing, because no organizer row exists yet |
| TargetFilter.Accepts | src/window.js:274 | an insertion passes exactly when it occurs somewhere in `1234567890` |
| TargetFilter.AcceptsIffKeyRun | src/window.js:273-277 | an insertion passes exactly when it is a run of consecutive keys of `1234567890` |
| TargetFilter.AcceptedIsKeyRun | src/window.js:274 | every accepted text is such a run |
| TargetFilter.KeyRunOccurs | src/window.js:274 | a non-empty key run occurs in `1234567890` at the position of its first key |
| TargetFilter.KeyRunIsAccepted | src/window.js:274 | every such run is accepted |
| TargetFilter.AcceptsSingle | src/window.js:274 | a single character passes exactly when it is a digit |
| TargetFilter.AcceptsExamples | src/window.js:274 | the empty text and `90` pass, while `09` is stopped |
| TargetFilter.AcceptedIsDigits | src/window.js:273-277 | an accepted text consists of digits only |
| TargetFilter.ApplyEdit | src/window.js:273-277 | an accepted insertion lands at its position with the text before and after it kept; a stopped or out-of-range insertion leaves the field unchanged; a delete keeps the text before and after the range; a digit field stays digits |
| TargetFilter.SpliceDigits | src/window.js:273-277 | splicing digits into a digit field leaves digits |
| TargetFilter.ParseTarget | src/window.js:284 | the target is NaN exactly for an empty digit field, and otherwise the field's decimal value |
| TargetFilter.FieldStaysDigits | src/window.js:273-288 | whatever is typed, pasted or deleted, the field holds only digits, so the stored target is NaN exactly when the field is empty |
| TargetFilter.ParseTargetOfNumber | src/window.js:284 | every number typed in decimal is stored as that number, with exact arithmetic (JavaScript agrees below 2^53) |
| Findings.OpenSelectSaveAsWritten | src/window.js:152-167 | after `open`, the first selection loads nothing: the buffer keeps its old text, and the next save writes that text as the selected chapter's body |
| Findings.StartupOpenEmptiesChapter | src/window.js:152-194 | at start-up, opening a project, selecting its non-empty chapter and saving writes that chapter back with an empty body |
| Findings.SelectionChangedIntended | src/window.js:149-171 | corrected handler: it always loads the new chapter's whole body after the flush (`set_text` with length -1), and it writes the row flag to `include` as well as `included`; preserves `Wf` |
| Findings.OpenSelectSaveIntended | src/window.js:149-171 | with the corrected handler, opening, selecting and saving writes back exactly the document opened |
| Findings.ToggleLostOnReopenAsWritten | src/window.js:164-240 | a toggled include flag that is flushed, saved and reopened comes back with the stored value, not the user's |
| Findings.ToggleKeptOnReopenIntended | src/window.js:164-240 | with the corrected handler the reopened row shows the flag the user left |
| Findings.SwitchEmptiesCafeAsWritten | src/window.js:159-163 | as written: switching from a chapter to one whose body is `café` and straight back stores `""` as that chapter's body |
| Findings.SwitchAwayAndBackIntended | src/window.js:149-171 | with the corrected handler, switching away and straight back restores the buffer, stores it in the first chapter, and leaves the other chapter's body intact, for any text |
| Encoding.Utf16Length | src/window.js:160 | JavaScript's `.length` of a text: at least one and at most two code units per character, and exactly one per character when every character lies below U+10000 |
| Encoding.Utf8Length | src/window.js:160 | the UTF-8 byte count `set_text` measures its length in: between one and four bytes per character |
| Encoding.Utf16AtMostUtf8 | src/window.js:160 | JavaScript's `.length` of a text never exceeds its UTF-8 byte count, and equals it exactly when the text is ASCII |
| Encoding.Utf8Prefix | src/window.js:160 | the longest prefix of a text whose UTF-8 encoding fits in the given bytes |
| Encoding.SetText | src/window.js:160 | `set_text(text, len)` leaves a prefix of the text: all of it for a negative length, and otherwise either nothing or a prefix of exactly `len` bytes |
| Encoding.SetTextAtBoundary | src/window.js:160 | a byte length that ends on a character boundary loads exactly that prefix |
| Encoding.Loaded | src/window.js:159-160 | `set_text(body, body.length)` leaves a prefix of the body, and the whole body exactly when it is ASCII |
| Encoding.LengthsOfAppend | src/window.js:160 | both the UTF-16 length and the UTF-8 byte count add up over concatenation |
| Encoding.LengthsOfAscii | src/window.js:160 | on ASCII text both measures equal the number of characters |
| Encoding.LoadedEndingInTwoByteChar | src/window.js:159-160 | an ASCII text ending in one two-byte character such as `é` loads as nothing |
| Encoding.LoadedAroundThreeByteChar | src/window.js:159-160 | one three-byte character such as `’` between ASCII texts makes the load drop the last two characters |
| Encoding.LoadedCafe | src/window.js:159-160 | `café` (4 code units, 5 bytes) loads as nothing |
| Encoding.LoadedApostrophe | src/window.js:159-160 | `It’s done` (9 code units, 11 bytes) loads as `It’s do` |

## Left out

- `src/main.js` is not part of this model. It holds the application bootstrap and has no bookkeeping logic.
- Widget construction, renderers, the file menu, dialog creation and `initUI` wiring are left out. They are GTK plumbing with no state logic.
- JSON serialisation, UTF-8 decoding and file reads and writes are left out as foreign I/O. `Save` yields the document value it would write, and `Open` takes the already-parsed document.
- The parse-error message dialog in `open` is left out. A file that fails to parse is outside the model.
- The unique-id generator is left out as a foreign call. `NewChapter` takes the id as a parameter and requires that it is not already stored.
- Progress-bar arithmetic is left out because it uses floating-point division and `Math.round`. So is the window-title text. Only the word count that feeds the bar is modelled.
- Persistence.Open: requires every id of `order` to name a stored chapter. On a file that breaks this, the code throws part-way through rebuilding the organizer, which is not modelled.
- TargetFilter.ParseTarget: models `parseInt` only for text that begins with a digit or is empty. Leading whitespace, signs and `0x` prefixes never reach it, because the field accepts only runs of digit keys (`FieldStaysDigits`).
- WordCount.TotalWordCount: omits the `"store" in this` guard. The organizer creates the store before any handler can run, so the guard always holds.
- Organizer.DeleteSelected: does not model the selection-changed signal that GTK raises while a row is removed. Calling `SelectionChanged` after the delete models that signal explicitly.
- Persistence.Open: does not model the selection-changed signal that `store.clear()` raises when it removes the selected row (`src/window.js:233`), after `this.data` has already been replaced (`src/window.js:220`). At that moment nothing is selected. The remembered row is normally the removed row itself, so the handler skips the flush. When it is another row, because an earlier call threw before updating it, the handler reads the missing selection before any write, which the model treats as a throw, as in `Organizer.SelectionChanged`. If the bindings instead returned a usable value there, the old buffer could be flushed into the newly opened document; `Open` leaves the opened chapters exactly as loaded and does not cover that case.
- Organizer.DeleteSelected: with no selected row, the model skips the removal and still runs the empty-store check. Whether the bindings' `iter_is_valid` returns false for the missing iterator or throws is not modelled.
- Manuscript.Initial: the start-up document has no `order` field and holds the empty string as its target. The model starts from an empty order and an unset target.
- Text.ParseInt: models `parseInt` only for text that is empty or starts with a digit. Leading whitespace, which `parseInt` skips, and a leading sign, which it reads, fall into the `None` case here. The target field never holds them (`TargetFilter.FieldStaysDigits`).
- Text.ParseInt: values are exact naturals. JavaScript's `parseInt` returns a double, so values are exact only below 2^53 (`9007199254740993` reads as `9007199254740992`). The read-back lemmas `Text.ParseIntOfNatToString` and `TargetFilter.ParseTargetOfNumber` hold for JavaScript only in that range.
- Text.NatToString: models `${n}` only below 10^21. From 10^21 on, JavaScript writes exponent form (`1e+21`). The chapter counter never gets near that.
- Persistence.SaveThenOpen: the round trip is over document values, not JSON text. `JSON.stringify` writes a NaN target (`NotANumber`, stored for an empty target field) as `null`, so a reopened file holds the target `null`, not NaN.
- Dragging organizer rows (the list is made reorderable at `src/window.js:106`) is not modelled. GTK performs a drag as an insert plus a delete, so a dragged remembered row is lost and its buffer text is not flushed. The order `save` writes still follows the rows as they stand.
- Encoding.SetText: a text holding U+0000 is not modelled; the C string conversion stops at the first NUL, so such a body loads only up to it. Lone surrogates are not modelled either, since Dafny characters are Unicode scalar values.
- Toggling the include box of the selected row and saving without switching rows still loses the flag, even with the corrected handler: `save` copies only the buffer into the selected chapter, and the flag reaches the chapter only through a flush.
- Text.ParseInt: does not model JavaScript's NaN as a number. It is the `None` case, stored as the `NotANumber` target.

## Findings

| source | as written | input that shows it | evidently intended | confidence | as-written member | corrected member |
|---|---|---|---|---|---|---|
| src/window.js:152-167 | after `open` clears the store, no remembered row is valid. The first selection-changed call then neither flushes nor loads, so the buffer keeps the text it held before, and the next flush or save stores that text as the selected chapter's body | at start-up (buffer `""`), open a project whose one chapter has body `hello`, select that chapter, save: the file is written with that chapter's body `""` | the newly selected chapter's body is always loaded into the buffer, so opening, selecting and saving writes back the document that was opened | not executed | Findings.OpenSelectSaveAsWritten | Findings.OpenSelectSaveIntended |
| src/window.js:164 | the flush stores the row's include flag under the field `included`, while `open` rebuilds each row from the field `include`, so a toggled flag is lost once the file is saved and reopened | toggle the include box of a chapter created with `include: true`, select another chapter, save, open the file: the row shows the box ticked again | the flush writes the flag to `include`, the field that `open` reads | not executed | Findings.ToggleLostOnReopenAsWritten | Findings.ToggleKeptOnReopenIntended |
| src/window.js:160 | the load passes `newText.length`, a count of UTF-16 code units, to `set_text`, which reads its length as UTF-8 bytes. A non-ASCII body therefore loads cut short, or as nothing when the cut falls inside a character, and the next flush stores the cut text as the chapter's body | with chapter A remembered, select chapter B whose body is `café` (4 code units, 5 bytes), then select A again: B's body is stored as `""` | `set_text(newText, -1)`, which loads the whole body | not executed | Findings.SwitchEmptiesCafeAsWritten | Findings.SwitchAwayAndBackIntended |

The rest of the model follows the handlers as written. The corrected
selection-changed handler sits alongside them in `Findings`.

=== FILE: encoding.dfy ===
/**
  How a chapter body reaches the editor. JavaScript measures a string in
  UTF-16 code units, while `gtk_text_buffer_set_text(buffer, text, len)`
  reads `len` as a count of UTF-8 bytes: it clears the buffer and inserts
  the first `len` bytes of `text` when they are valid UTF-8, or all of
  `text` when `len` is -1.
 */
module Encoding {

  /** UTF-16 code units of one character: its share of JavaScript's `.length`. */
  function Utf16Units(c: char): nat
  {
    if c as int < 0x1_0000 then 1 else 2
  }

  /** UTF-8 bytes of one character. */
  function Utf8Bytes(c: char): nat
  {
    if c as int < 0x80 then 1
    else if c as int < 0x800 then 2
    else if c as int < 0x1_0000 then 3
    else 4
  }

  /**
    `s.length` in JavaScript: one code unit per character of the Basic
    Multilingual Plane and two (a surrogate pair) for every other one.
   */
  function Utf16Length(s: string): (n: nat)
    ensures |s| <= n <= 2 * |s|
    ensures n == |s| <==> forall i :: 0 <= i < |s| ==> s[i] as int < 0x1_0000
  {
    if |s| == 0 then 0 else Utf16Units(s[0]) + Utf16Length(s[1..])
  }

  /** The length of the UTF-8 encoding of `s`: one to four bytes per character. */
  function Utf8Length(s: string): (n: nat)
    ensures |s| <= n <= 4 * |s|
  {
    if |s| == 0 then 0 else Utf8Bytes(s[0]) + Utf8Length(s[1..])
  }

  /** Every character is in the 7-bit range, where both measures agree. */
  predicate IsAscii(s: string)
  {
    forall i :: 0 <= i < |s| ==> s[i] as int < 0x80
  }

  /**
    A string never has more UTF-16 units than UTF-8 bytes, and has as many
    exactly when it is ASCII.
   */
  lemma {:induction false} Utf16AtMostUtf8(s: string)
    ensures Utf16Length(s) <= Utf8Length(s)
    ensures Utf16Length(s) == Utf8Length(s) <==> IsAscii(s)
    decreases |s|
  {
    if |s| > 0 {
      Utf16AtMostUtf8(s[1..]);
      assert forall i :: 1 <= i < |s| ==> s[i] == s[1..][i - 1];
      assert IsAscii(s) <==> s[0] as int < 0x80 && IsAscii(s[1..]);
    }
  }

  /** The longest prefix of `s` whose UTF-8 encoding fits in `n` bytes. */
  function Utf8Prefix(s: string, n: nat): (p: string)
    ensures |p| <= |s| && p == s[..|p|]
    ensures Utf8Length(p) <= n
    ensures |p| < |s| ==> Utf8Length(p) + Utf8Bytes(s[|p|]) > n
    decreases |s|
  {
    if |s| == 0 || Utf8Bytes(s[0]) > n then ""
    else
      var rest := Utf8Prefix(s[1..], n - Utf8Bytes(s[0]));
      var p := [s[0]] + rest;
      assert p[1..] == rest;
      p
  }

  /** A prefix that ends on a character boundary is found again from its byte length. */
  lemma {:induction false} Utf8PrefixAtBoundary(s: string, k: nat)
    requires k <= |s|
    ensures Utf8Prefix(s, Utf8Length(s[..k])) == s[..k]
    decreases k
  {
    if k > 0 {
      assert s[..k][1..] == s[1..][..k - 1];
      Utf8PrefixAtBoundary(s[1..], k - 1);
      assert s[..k] == [s[0]] + s[1..][..k - 1];
    } else {
      assert s[..k] == "";
      if |s| > 0 {
        assert Utf8Bytes(s[0]) > 0;
      }
    }
  }

  /**
    The text the buffer holds after `set_text(text, len)`: everything for a
    negative `len`; otherwise the first `len` bytes when they end on a
    character boundary inside `text`, and nothing when they would cut a
    character or run past the end.
   */
  function SetText(text: string, len: int): (r: string)
    ensures |r| <= |text| && r == text[..|r|]
    ensures len < 0 ==> r == text
    ensures len >= 0 ==> r == "" || Utf8Length(r) == len
  {
    if len < 0 then text
    else
      var p := Utf8Prefix(text, len);
      if Utf8Length(p) == len then p else ""
  }

  /** A byte length that ends on a character boundary inserts exactly that prefix. */
  lemma SetTextAtBoundary(text: string, k: nat)
    requires k <= |text|
    ensures SetText(text, Utf8Length(text[..k])) == text[..k]
  {
    Utf8PrefixAtBoundary(text, k);
  }

  /**
    `set_text(body, body.length)`, the load of the selection-changed handler:
    the body arrives whole exactly when it is ASCII, and otherwise a strict
    prefix of it arrives (often nothing).
   */
  function Loaded(body: string): (r: string)
    ensures |r| <= |body| && r == body[..|r|]
    ensures r == body <==> IsAscii(body)
  {
    Utf16AtMostUtf8(body);
    if IsAscii(body) then
      SetTextAtBoundary(body, |body|);
      assert body[..|body|] == body;
      SetText(body, Utf16Length(body))
    else
      SetText(body, Utf16Length(body))
  }

  /** Both measures add up over concatenation. */
  lemma {:induction false} LengthsOfAppend(a: string, b: string)
    ensures Utf16Length(a + b) == Utf16Length(a) + Utf16Length(b)
    ensures Utf8Length(a + b) == Utf8Length(a) + Utf8Length(b)
    decreases |a|
  {
    if |a| > 0 {
      assert (a + b)[1..] == a[1..] + b;
      LengthsOfAppend(a[1..], b);
    } else {
      assert a + b == b;
    }
  }

  /** On ASCII text both measures are the number of characters. */
  lemma {:induction false} LengthsOfAscii(s: string)
    requires IsAscii(s)
    ensures Utf16Length(s) == |s| && Utf8Length(s) == |s|
    decreases |s|
  {
    if |s| > 0 {
      assert IsAscii(s[1..]) by {
        assert forall i :: 0 <= i < |s[1..]| ==> s[1..][i] == s[i + 1];
      }
      LengthsOfAscii(s[1..]);
    }
  }

  /** Lengths of one character on its own. */
  lemma LengthsOfChar(c: char)
    ensures Utf16Length([c]) == Utf16Units(c) && Utf8Length([c]) == Utf8Bytes(c)
  {
    assert [c][1..] == "";
  }

  /**
    An ASCII text ending in one two-byte character (such as `é`) loads as
    nothing: its `.length` cuts the last character in half.
   */
  lemma LoadedEndingInTwoByteChar(a: string, e: char)
    requires IsAscii(a) && Utf8Bytes(e) == 2
    ensures Loaded(a + [e]) == ""
  {
    var t := a + [e];
    LengthsOfAscii(a);
    LengthsOfChar(e);
    LengthsOfAppend(a, [e]);
    var r := Loaded(t);
    assert r == SetText(t, |a| + 1);
    assert t[|a|] == e;
    assert |r| <= |a| by {
      assert r != t;
    }
    assert r == a[..|r|];
    assert IsAscii(a[..|r|]);
    LengthsOfAscii(a[..|r|]);
  }

  /** Lengths of one character between two ASCII texts. */
  lemma LengthsAroundChar(a: string, q: char, b: string)
    requires IsAscii(a) && IsAscii(b)
    ensures Utf16Length(a + [q] + b) == |a| + Utf16Units(q) + |b|
    ensures Utf8Length(a + [q] + b) == |a| + Utf8Bytes(q) + |b|
  {
    LengthsOfAscii(a);
    LengthsOfAscii(b);
    LengthsOfChar(q);
    LengthsOfAppend(a, [q]);
    LengthsOfAppend(a + [q], b);
  }

  /**
    One three-byte character (such as `’`) between ASCII texts costs the
    load the last two characters, which the two missing bytes leave out.
   */
  lemma LoadedAroundThreeByteChar(a: string, q: char, b: string)
    requires IsAscii(a) && IsAscii(b) && Utf8Bytes(q) == 3 && Utf16Units(q) == 1 && |b| >= 2
    ensures Loaded(a + [q] + b) == a + [q] + b[..|b| - 2]
  {
    var t := a + [q] + b;
    var short := b[..|b| - 2];
    var kept := a + [q] + short;
    assert IsAscii(short);
    LengthsAroundChar(a, q, b);
    LengthsAroundChar(a, q, short);
    assert t[..|kept|] == kept;
    SetTextAtBoundary(t, |kept|);
    assert Loaded(t) == SetText(t, Utf16Length(t));
  }

  /** `café` (4 code units, 5 bytes) loads as nothing. */
  lemma LoadedCafe()
    ensures Loaded("caf\U{E9}") == ""
  {
    var stem, e := "caf", '\U{E9}';
    assert stem + [e] == "caf\U{E9}";
    LoadedEndingInTwoByteChar(stem, e);
  }

  /** `It’s done` (9 code units, 11 bytes) loads as `It’s do`. */
  lemma LoadedApostrophe()
    ensures Loaded("It\U{2019}s done") == "It\U{2019}s do"
  {
    var it, q, rest := "It", '\U{2019}', "s done";
    assert it + [q] + rest == "It\U{2019}s done";
    assert rest[..|rest| - 2] == "s do";
    LoadedAroundThreeByteChar(it, q, rest);
    assert it + [q] + rest[..|rest| - 2] == "It\U{2019}s do";
  }
}

=== FILE: filenames.dfy ===
/**
  The project file-name convention: a project file is one whose last
  dot-separated segment is `novelest`, and the save dialog appends the
  extension to any name that fails that test.
 */
module FileNames {

  import opened Text

  const Extension: string := "novelest"

  /** `filename.split(".")` has `novelest` as its last element. */
  predicate IsNovelestFile(filename: string)
    ensures IsNovelestFile(filename) ==> EndsWith(filename, Extension)
  {
    LastPieceIsSuffix(filename, '.');
    LastPiece(filename, '.') == Extension
  }

  /** The extension itself contains no dot. */
  lemma ExtensionHasNoDot()
    ensures '.' !in Extension
  {
    assert forall i :: 0 <= i < |Extension| ==> Extension[i] != '.';
  }

  /** A final dot-free piece is `novelest` exactly when the name is or ends in it. */
  lemma FinalPieceIsExtension(f: string, l: string)
    requires IsFinalPiece(f, '.', l)
    ensures l == Extension <==> f == Extension || EndsWith(f, "." + Extension)
  {
    ExtensionHasNoDot();
    var n := |f|;
    var k := n - |l|;
    assert forall j :: k <= j < n ==> f[j] == l[j - k];
    if l == Extension && |l| < n {
      assert f[k - 1..] == [f[k - 1]] + f[k..];
    }
    if f == Extension {
      assert forall j :: 0 <= j < n ==> f[j] != '.';
    } else if EndsWith(f, "." + Extension) {
      assert f[n - 9] == '.';
      assert f[n - 8..] == Extension;
      assert forall j :: n - 8 <= j < n ==> f[j] == Extension[j - (n - 8)];
    }
  }

  /**
    An independent reading of the test: the name is exactly `novelest`
    (no dot at all) or it ends with `.novelest`.
   */
  lemma IsNovelestFileIff(filename: string)
    ensures IsNovelestFile(filename) <==>
      filename == Extension || EndsWith(filename, "." + Extension)
  {
    LastPieceIsSuffix(filename, '.');
    FinalPieceIsExtension(filename, LastPiece(filename, '.'));
  }

  /**
    The file name the new-project save dialog settles on: the chosen name,
    with `.novelest` appended when it does not already pass the test.
   */
  function Normalize(filename: string): (r: string)
    ensures IsNovelestFile(r)
    ensures r == filename <==> IsNovelestFile(filename)
    ensures r == filename || r == filename + "." + Extension
  {
    if IsNovelestFile(filename) then filename
    else
      IsNovelestFileIff(filename + "." + Extension);
      filename + "." + Extension
  }

  /** Normalising a normalised name changes nothing. */
  lemma NormalizeIdempotent(filename: string)
    ensures Normalize(Normalize(filename)) == Normalize(filename)
  {
  }

  /**
    Only the segment after the last dot decides: `stem.ext` passes exactly
    when `ext` is `novelest`, whatever the stem holds.
   */
  lemma DecidedByLastSegment(stem: string, ext: string)
    requires '.' !in ext
    ensures IsNovelestFile(stem + "." + ext) <==> ext == Extension
    ensures ext != Extension ==> Normalize(stem + "." + ext) == stem + "." + ext + "." + Extension
  {
    LastPieceAfterSeparator(stem, '.', ext);
    assert stem + "." + ext == stem + ['.'] + ext;
  }

  /** The extension is appended, never substituted: `stem.txt` becomes `stem.txt.novelest`. */
  lemma NormalizeAppendsExample(stem: string)
    ensures Normalize(stem + ".txt") == stem + ".txt.novelest"
  {
    var txt := "txt";
    assert '.' !in txt && txt != Extension;
    DecidedByLastSegment(stem, txt);
    assert stem + "." + txt == stem + ".txt";
    assert stem + "." + txt + "." + Extension == stem + ".txt.novelest";
  }

  /** `stem.novelest` is kept, while `stem.novelest.bak` fails the test. */
  lemma NormalizeKeepsExample(stem: string)
    ensures Normalize(stem + ".novelest") == stem + ".novelest"
    ensures !IsNovelestFile(stem + ".novelest.bak")
  {
    var kept, bak := Extension, "bak";
    assert '.' !in bak && bak != Extension;
    DecidedByLastSegment(stem, kept);
    assert stem + "." + kept == stem + ".novelest";
    DecidedByLastSegment(stem + ".novelest", bak);
    assert stem + ".novelest" + "." + bak == stem + ".novelest.bak";
  }

  /** A name without any dot passes exactly when it is `novelest` itself. */
  lemma DotlessName(filename: string)
    requires '.' !in filename
    ensures IsNovelestFile(filename) <==> filename == Extension
    ensures filename != Extension ==> Normalize(filename) == filename + "." + Extension
  {
    SplitWithoutSeparator(filename, '.');
  }
}

=== FILE: findings.dfy ===
/**
  Three places where the window's handlers lose the user's work, each shown
  on the handlers as written, next to a corrected selection-changed handler
  with the intended property proved about it.

  1. After `open` no row is remembered, so the first selection-changed call
     neither flushes nor loads: the buffer keeps the text it held before and
     the next flush or save stores that text as the selected chapter's body.
  2. The flush records a row's include flag under `included`, while `open`
     rebuilds rows from `include`, so a toggled flag comes back reset.
  3. The load passes the body's JavaScript length (UTF-16 code units) to
     `set_text`, which reads it as a byte count, so a non-ASCII body arrives
     cut short or empty, and the next flush stores the cut text.
 */
module Findings {

  import opened Wrappers
  import opened Manuscript
  import opened FileNames
  import opened Organizer
  import opened Persistence
  import opened Encoding

  /**
    As written: open a project, select row `i`, save. The written document
    holds the old buffer text as that chapter's body, so whenever the two
    differ the file no longer matches what was opened.
   */
  lemma OpenSelectSaveAsWritten(s: Session, filename: string, d: Document, i: nat)
    requires Wf(s) && IsNovelestFile(filename) && OrderResolves(d) && i < |d.order|
    ensures var o := SelectionChanged(Open(s, filename, d), Some(i));
      var saved := Save(o, Some(i));
      && o.buffer == s.buffer
      && saved.written.Some?
      && saved.written.value.chapters[d.order[i]].body == s.buffer
      && (s.buffer != d.chapters[d.order[i]].body ==> saved.written != Some(d))
  {
    var loaded := Open(s, filename, d);
    assert loaded.rows[i].id == d.order[i];
  }

  /**
    The smallest case: at start-up the buffer is empty; open a project file
    (any name that passes the test, such as `draft.novelest`) whose one
    chapter has a non-empty body, select it and save. The file written has
    that chapter's body emptied.
   */
  lemma StartupOpenEmptiesChapter(filename: string, a: Id, title: string, body: string)
    requires IsNovelestFile(filename) && body != ""
    ensures var d :=
      Document("", "", filename, Unset, map[a := Chapter(title, body, true, None)], [a]);
      var saved := Save(SelectionChanged(Open(Initial(), filename, d), Some(0)), Some(0));
      && saved.written.Some?
      && saved.written.value.chapters[a].body == ""
  {
    var d := Document("", "", filename, Unset, map[a := Chapter(title, body, true, None)], [a]);
    var s0 := Initial();
    assert OrderResolves(d);
    OpenSelectSaveAsWritten(s0, filename, d, 0);
  }

  /**
    The selection-changed handler as evidently intended: the newly selected
    chapter's stored body is loaded whether or not a row is remembered, it
    is read after the flush and passed to `set_text` with length -1 (the
    whole text), and the flush writes the row's flag to the `include` field
    that `open` reads (as well as to `included`).
   */
  function SelectionChangedIntended(s: Session, sel: Option<nat>): (r: Session)
    ensures !ValidRow(s.rows, sel) ==> r.data == s.data && r.buffer == s.buffer && r.rows == s.rows
    ensures Wf(s) && ValidRow(s.rows, sel) ==>
      && r.rows == s.rows
      && r.previous == sel
      && r.data == s.data.(chapters := r.data.chapters)
      && r.data.chapters.Keys == s.data.chapters.Keys
      && r.buffer == r.data.chapters[s.rows[sel.value].id].body
    ensures Wf(s) && ValidRow(s.rows, sel) && ValidRow(s.rows, s.previous) ==>
      var prev := s.rows[s.previous.value];
      && r.data.chapters[prev.id] == s.data.chapters[prev.id].(
           title := prev.title, body := s.buffer, incl := prev.incl, included := Some(prev.incl))
      && (forall k :: k in s.data.chapters && k != prev.id ==>
            r.data.chapters[k] == s.data.chapters[k])
    ensures Wf(s) && ValidRow(s.rows, sel) && !ValidRow(s.rows, s.previous) ==> r.data == s.data
    ensures Wf(s) ==> Wf(r)
  {
    if !ValidRow(s.rows, sel) then
      if ValidRow(s.rows, s.previous) then s else s.(previous := None)
    else
      var chapters :=
        if ValidRow(s.rows, s.previous) && s.rows[s.previous.value].id in s.data.chapters then
          var prev := s.rows[s.previous.value];
          s.data.chapters[prev.id := s.data.chapters[prev.id].(
            title := prev.title, body := s.buffer, incl := prev.incl, included := Some(prev.incl))]
        else s.data.chapters;
      var next := s.rows[sel.value].id;
      if next in chapters then
        s.(data := s.data.(chapters := chapters),
           buffer := SetText(chapters[next].body, -1),
           previous := sel)
      else s
  }

  /** Corrected: opening, selecting a row and saving writes back exactly what was opened. */
  lemma OpenSelectSaveIntended(s: Session, filename: string, d: Document, i: nat)
    requires Wf(s) && IsNovelestFile(filename) && OrderResolves(d) && i < |d.order|
    ensures var o := SelectionChangedIntended(Open(s, filename, d), Some(i));
      && o.buffer == d.chapters[d.order[i]].body
      && Save(o, Some(i)).written == Some(d)
  {
    var loaded := Open(s, filename, d);
    assert loaded.rows[i].id == d.order[i];
    var o := SelectionChangedIntended(loaded, Some(i));
    assert o.data == d && o.rows == loaded.rows;
    SaveWritesBack(o, Some(i));
  }

  /**
    As written: untick row `p`'s include flag (so it differs from the stored
    chapter's `include`), select another row `q` so that `p` is flushed, save
    and open the file: row `p` comes back with the stored flag, not the
    user's.
   */
  lemma ToggleLostOnReopenAsWritten(s: Session, q: nat, filename: string)
    requires Wf(s) && ValidRow(s.rows, s.previous) && q < |s.rows| && IsNovelestFile(filename)
    requires s.rows[q].id != s.rows[s.previous.value].id
    requires s.rows[s.previous.value].incl != s.data.chapters[s.rows[s.previous.value].id].incl
    ensures var p := s.previous.value;
      var saved := Save(SelectionChanged(s, Some(q)), Some(q));
      && saved.written.Some?
      && OrderResolves(saved.written.value)
      && Open(saved.session, filename, saved.written.value).rows[p].incl != s.rows[p].incl
  {
    var s1 := SelectionChanged(s, Some(q));
    SaveThenOpen(s1, Some(q), filename);
  }

  /** Corrected: the flag the user left on row `p` is the flag the reopened row shows. */
  lemma ToggleKeptOnReopenIntended(s: Session, q: nat, filename: string)
    requires Wf(s) && ValidRow(s.rows, s.previous) && q < |s.rows| && IsNovelestFile(filename)
    requires s.rows[q].id != s.rows[s.previous.value].id
    ensures var p := s.previous.value;
      var saved := Save(SelectionChangedIntended(s, Some(q)), Some(q));
      && saved.written.Some?
      && OrderResolves(saved.written.value)
      && Open(saved.session, filename, saved.written.value).rows[p].incl == s.rows[p].incl
  {
    var s1 := SelectionChangedIntended(s, Some(q));
    SaveThenOpen(s1, Some(q), filename);
  }

  /**
    As written: with chapter A remembered, select chapter B whose body is
    `café`, then select A again. The load gives the buffer nothing, the
    flush stores that as B's body, and B's text is gone.
   */
  lemma SwitchEmptiesCafeAsWritten(s: Session, b: nat)
    requires Wf(s) && ValidRow(s.rows, s.previous) && b < |s.rows|
    requires s.rows[b].id != s.rows[s.previous.value].id
    requires s.data.chapters[s.rows[b].id].body == "caf\U{E9}"
    ensures var r := SelectionChanged(SelectionChanged(s, Some(b)), s.previous);
      r.data.chapters[s.rows[b].id].body == ""
  {
    SwitchAwayAndBack(s, b);
    LoadedCafe();
  }

  /**
    Corrected: switching from A to B and straight back keeps every text,
    ASCII or not: the buffer comes back, A holds it, and B is untouched.
   */
  lemma SwitchAwayAndBackIntended(s: Session, b: nat)
    requires Wf(s) && ValidRow(s.rows, s.previous) && b < |s.rows|
    requires s.rows[b].id != s.rows[s.previous.value].id
    ensures var r := SelectionChangedIntended(SelectionChangedIntended(s, Some(b)), s.previous);
      && r.buffer == s.buffer
      && r.previous == s.previous
      && r.data.chapters[s.rows[s.previous.value].id].body == s.buffer
      && r.data.chapters[s.rows[b].id].body == s.data.chapters[s.rows[b].id].body
  {
    var a := s.rows[s.previous.value].id;
    var s1 := SelectionChangedIntended(s, Some(b));
    assert s1.data.chapters[a].body == s.buffer;
    assert s1.buffer == s.data.chapters[s.rows[b].id].body;
  }
}

=== FILE: manuscript.dfy ===
/**
  The state the Novelest window keeps about the open manuscript: the project
  document (`this.data`), the organizer's list store, the editor buffer, the
  last selected organizer row and the chapter-number counter.
 */
module Manuscript {

  import opened Wrappers

  /** A chapter id as the short unique id generator produces it. */
  type Id = string

  /**
    One entry of `data.chapters`. New chapters carry `include` (here `incl`); the
    selection-changed flush writes a separate field `included`, which stays
    absent (`None`) until the chapter is first flushed.
   */
  datatype Chapter = Chapter(title: string, body: string, incl: bool, included: Option<bool>)

  /** One organizer row: the list store's columns title, include (`incl`) and id. */
  datatype Row = Row(title: string, incl: bool, id: Id)

  /**
    The target word count: the empty string before a project is created,
    a number after `parseInt`, or NaN when the field was left empty.
   */
  datatype Target = Unset | Goal(words: nat) | NotANumber

  /** `this.data`, the value that is serialised to the project file. */
  datatype Document = Document(
    title: string,
    author: string,
    filename: string,
    target: Target,
    chapters: map<Id, Chapter>,
    order: seq<Id>)

  /** Everything a chapter handler reads or writes. */
  datatype Session = Session(
    data: Document,
    rows: seq<Row>,
    buffer: string,
    previous: Option<nat>,
    counter: nat,
    editorEnabled: bool,
    deleteEnabled: bool)

  /** A selection (or remembered row) that names an existing organizer row. */
  predicate ValidRow(rows: seq<Row>, sel: Option<nat>)
  {
    sel.Some? && sel.value < |rows|
  }

  /** The id column of the organizer, top to bottom. */
  function RowIds(rows: seq<Row>): (ids: seq<Id>)
    ensures |ids| == |rows|
    ensures forall i :: 0 <= i < |rows| ==> ids[i] == rows[i].id
  {
    seq(|rows|, i requires 0 <= i < |rows| => rows[i].id)
  }

  /**
    What every handler relies on: each row names a stored chapter with the
    row's title, the remembered row (if any) still exists, and the counter
    has started at 1.
   */
  predicate Wf(s: Session)
  {
    && s.counter >= 1
    && (forall i :: 0 <= i < |s.rows| ==> s.rows[i].id in s.data.chapters)
    && (forall i :: 0 <= i < |s.rows| ==> s.data.chapters[s.rows[i].id].title == s.rows[i].title)
    && (s.previous.None? || s.previous.value < |s.rows|)
  }

  /** No two organizer rows carry the same id. */
  predicate DistinctIds(rows: seq<Row>)
  {
    forall i, j :: 0 <= i < j < |rows| ==> rows[i].id != rows[j].id
  }

  /**
    The window as `initUI` leaves it: blank metadata, no chapters, an empty
    organizer, a disabled editor and delete button, and the counter at 1.
   */
  function Initial(): (s: Session)
    ensures Wf(s) && DistinctIds(s.rows)
    ensures |s.rows| == 0 && |s.data.chapters| == 0
    ensures !s.editorEnabled && !s.deleteEnabled
  {
    Session(Document("", "", "", Unset, map[], []), [], "", None, 1, false, false)
  }
}

=== FILE: organizer.dfy ===
/**
  The organizer handlers of the window: the new-chapter and delete buttons,
  the include toggle of a row, and the selection-changed handler that flushes
  the editor buffer into the chapter that was selected before.

  A widget iterator is modelled as an index into the row sequence. The
  remembered row `previous` follows its row when an earlier row is removed
  (list-store iterators stay attached to their row) and becomes `None` when
  its own row is removed.
 */
module Organizer {

  import opened Wrappers
  import opened Text
  import opened Manuscript
  import opened WordCount
  import opened Encoding

  /** The default title of the chapter created when the counter reads `n`. */
  function ChapterTitle(n: nat): (t: string)
    ensures |t| > 8 && t[..8] == "Chapter "
    ensures ParseInt(t[8..]) == Some(n)
    ensures AllDigits(t[8..]) && (|t| > 9 ==> t[8] != '0')
  {
    ParseIntOfNatToString(n);
    var t := "Chapter " + NatToString(n);
    assert t[8..] == NatToString(n);
    t
  }

  /** Different counter values give different default titles. */
  lemma ChapterTitleInjective(m: nat, n: nat)
    requires m != n
    ensures ChapterTitle(m) != ChapterTitle(n)
  {
    var a, b := ChapterTitle(m), ChapterTitle(n);
    assert ParseInt(a[8..]) != ParseInt(b[8..]);
  }

  /**
    The new-chapter button: appends a row for a fresh chapter titled after
    the counter, stores the chapter with an empty body and `include` set,
    bumps the counter and enables the editor and the delete button. `id`
    is the value of the unique id generator, which never returns a stored id.
   */
  function NewChapter(s: Session, id: Id): (r: Session)
    requires id !in s.data.chapters
    ensures |r.rows| == |s.rows| + 1 && r.rows[..|s.rows|] == s.rows
    ensures r.rows[|s.rows|] == Row(ChapterTitle(s.counter), true, id)
    ensures r.data.chapters.Keys == s.data.chapters.Keys + {id}
    ensures forall k :: k in s.data.chapters ==> r.data.chapters[k] == s.data.chapters[k]
    ensures r.data.chapters[id] == Chapter(ChapterTitle(s.counter), "", true, None)
    ensures r.data == s.data.(chapters := r.data.chapters)
    ensures r.counter == s.counter + 1
    ensures r.buffer == s.buffer && r.previous == s.previous
    ensures r.editorEnabled && r.deleteEnabled
    ensures TotalWords(r.data.chapters) == TotalWords(s.data.chapters)
    ensures Wf(s) ==> Wf(r)
    ensures Wf(s) && DistinctIds(s.rows) ==> DistinctIds(r.rows)
  {
    var title := ChapterTitle(s.counter);
    var chapter := Chapter(title, "", true, None);
    TotalWordsUpdate(s.data.chapters, id, chapter);
    var r := s.(data := s.data.(chapters := s.data.chapters[id := chapter]),
                rows := s.rows + [Row(title, true, id)],
                counter := s.counter + 1,
                editorEnabled := true,
                deleteEnabled := true);
    AppendRowKeepsWf(s, r, id);
    r
  }

  /**
    Appending a row for a freshly stored chapter of the same title keeps
    the session well formed.
   */
  lemma AppendRowKeepsWf(s: Session, r: Session, id: Id)
    requires id !in s.data.chapters && id in r.data.chapters
    requires r.rows == s.rows + [Row(r.data.chapters[id].title, true, id)]
    requires r.data.chapters == s.data.chapters[id := r.data.chapters[id]]
    requires r.counter >= s.counter && r.previous == s.previous
    ensures Wf(s) ==> Wf(r)
    ensures Wf(s) && DistinctIds(s.rows) ==> DistinctIds(r.rows)
  {
    if Wf(s) {
      forall i | 0 <= i < |r.rows|
        ensures r.rows[i].id in r.data.chapters
        ensures r.data.chapters[r.rows[i].id].title == r.rows[i].title
      {
        if i < |s.rows| {
          assert r.rows[i] == s.rows[i];
        }
      }
    }
  }

  /** Two chapters created one after the other get different titles and ids. */
  lemma NewChapterNeverReusesCounter(s: Session, a: Id, b: Id)
    requires a !in s.data.chapters && b !in NewChapter(s, a).data.chapters
    ensures a != b
    ensures NewChapter(NewChapter(s, a), b).data.chapters[a].title
         != NewChapter(NewChapter(s, a), b).data.chapters[b].title
  {
    ChapterTitleInjective(s.counter, s.counter + 1);
  }

  /**
    The include check box of the row at `path` flips that row's flag. Only
    the list store changes; the stored chapter keeps its `include` until a
    flush copies the row into `included`. A path without a row changes nothing.
   */
  function ToggleInclude(s: Session, path: nat): (r: Session)
    ensures r == s.(rows := r.rows)
    ensures |r.rows| == |s.rows|
    ensures forall i :: 0 <= i < |s.rows| && i != path ==> r.rows[i] == s.rows[i]
    ensures path < |s.rows| ==>
      r.rows[path].incl != s.rows[path].incl
      && r.rows[path].title == s.rows[path].title
      && r.rows[path].id == s.rows[path].id
    ensures path >= |s.rows| ==> r == s
    ensures Wf(s) ==> Wf(r)
    ensures DistinctIds(s.rows) ==> DistinctIds(r.rows)
  {
    if path < |s.rows| then
      s.(rows := s.rows[path := s.rows[path].(incl := !s.rows[path].incl)])
    else s
  }

  /** Toggling the same row twice restores the session. */
  lemma ToggleIncludeTwice(s: Session, path: nat)
    ensures ToggleInclude(ToggleInclude(s, path), path) == s
  {
    var r := ToggleInclude(ToggleInclude(s, path), path);
    assert r.rows == s.rows;
  }

  /**
    Where the remembered row ends up when the row at `i` is removed: it is
    lost with its own row and moves up one place when a row above it goes.
   */
  function PreviousAfterRemove(previous: Option<nat>, i: nat): (p: Option<nat>)
    ensures previous.None? || previous == Some(i) <==> p.None?
    ensures p.Some? && previous.value < i ==> p.value == previous.value
    ensures p.Some? && previous.value > i ==> p.value + 1 == previous.value
  {
    match previous
    case None => None
    case Some(q) => if q == i then None else if q > i then Some(q - 1) else Some(q)
  }

  /**
    The delete button: removes the selected row from the list store (and
    nothing from `data.chapters`). When no row is left, the buffer is
    cleared and the editor and the delete button are disabled.
   */
  function DeleteSelected(s: Session, sel: Option<nat>): (r: Session)
    ensures r.data == s.data && r.counter == s.counter
    ensures ValidRow(s.rows, sel) ==>
      && |r.rows| == |s.rows| - 1
      && (forall j :: 0 <= j < sel.value ==> r.rows[j] == s.rows[j])
      && (forall j :: sel.value <= j < |r.rows| ==> r.rows[j] == s.rows[j + 1])
    ensures ValidRow(s.rows, sel) ==> r.previous == PreviousAfterRemove(s.previous, sel.value)
    ensures !ValidRow(s.rows, sel) ==> r.rows == s.rows && r.previous == s.previous
    ensures |r.rows| == 0 ==> r.buffer == "" && !r.editorEnabled && !r.deleteEnabled
    ensures |r.rows| > 0 ==>
      && r.buffer == s.buffer
      && r.editorEnabled == s.editorEnabled
      && r.deleteEnabled == s.deleteEnabled
    ensures Wf(s) ==> Wf(r)
    ensures Wf(s) && r.previous.Some? ==>
      s.previous.Some? && r.rows[r.previous.value] == s.rows[s.previous.value]
    ensures Wf(s) && ValidRow(s.rows, sel) && s.previous.Some? && s.previous != sel ==>
      r.previous.Some?
    ensures DistinctIds(s.rows) ==> DistinctIds(r.rows)
  {
    var rows := if ValidRow(s.rows, sel) then RemoveRow(s.rows, sel.value) else s.rows;
    var previous :=
      if ValidRow(s.rows, sel) then PreviousAfterRemove(s.previous, sel.value) else s.previous;
    var r :=
      if |rows| == 0 then
        s.(rows := rows, previous := previous, buffer := "",
           editorEnabled := false, deleteEnabled := false)
      else
        s.(rows := rows, previous := previous);
    if ValidRow(s.rows, sel) then
      RemoveRowKeepsWf(s, sel.value, r);
      r
    else r
  }

  /**
    Taking out row `i` keeps the session well formed, and the remembered row,
    if it survives, is still the same row.
   */
  lemma RemoveRowKeepsWf(s: Session, i: nat, r: Session)
    requires i < |s.rows|
    requires r.data == s.data && r.counter == s.counter
    requires r.rows == RemoveRow(s.rows, i) && r.previous == PreviousAfterRemove(s.previous, i)
    ensures Wf(s) ==> Wf(r)
    ensures Wf(s) && r.previous.Some? ==>
      s.previous.Some? && r.rows[r.previous.value] == s.rows[s.previous.value]
  {
    if Wf(s) {
      forall j | 0 <= j < |r.rows|
        ensures r.rows[j].id in r.data.chapters
        ensures r.data.chapters[r.rows[j].id].title == r.rows[j].title
      {
        assert r.rows[j] == s.rows[if j < i then j else j + 1];
      }
    }
  }

  /** The list store after `remove` of the row at `i`: the rows below move up by one. */
  function RemoveRow(rows: seq<Row>, i: nat): (kept: seq<Row>)
    requires i < |rows|
    ensures |kept| == |rows| - 1
    ensures forall j :: 0 <= j < i ==> kept[j] == rows[j]
    ensures forall j :: i <= j < |kept| ==> kept[j] == rows[j + 1]
    ensures DistinctIds(rows) ==> DistinctIds(kept)
  {
    rows[..i] + rows[i + 1..]
  }

  /** Removing the row at `i` removes the id at `i` and keeps the others in order. */
  lemma RowIdsRemove(rows: seq<Row>, i: nat)
    requires i < |rows|
    ensures RowIds(RemoveRow(rows, i)) == RowIds(rows)[..i] + RowIds(rows)[i + 1..]
  {
    var ids, kept := RowIds(rows), RowIds(RemoveRow(rows, i));
    var expected := ids[..i] + ids[i + 1..];
    assert |kept| == |expected|;
    assert forall j :: 0 <= j < |kept| ==> kept[j] == expected[j];
  }

  /** Removing the row at `i` takes exactly that row out of the multiset of rows. */
  lemma RemoveRowMultiset(rows: seq<Row>, i: nat)
    requires i < |rows|
    ensures multiset(RemoveRow(rows, i)) + multiset{rows[i]} == multiset(rows)
  {
    assert rows == rows[..i] + [rows[i]] + rows[i + 1..];
  }

  /** The row ids left after a delete keep their relative order. */
  lemma DeleteKeepsOrder(s: Session, i: nat)
    requires i < |s.rows|
    ensures RowIds(DeleteSelected(s, Some(i)).rows) == RowIds(s.rows)[..i] + RowIds(s.rows)[i + 1..]
    ensures multiset(DeleteSelected(s, Some(i)).rows) + multiset{s.rows[i]} == multiset(s.rows)
  {
    assert DeleteSelected(s, Some(i)).rows == RemoveRow(s.rows, i);
    RowIdsRemove(s.rows, i);
    RemoveRowMultiset(s.rows, i);
  }

  /** The selection as the handler stores it: a real row or nothing. */
  function Selected(rows: seq<Row>, sel: Option<nat>): (p: Option<nat>)
    ensures p.Some? <==> ValidRow(rows, sel)
    ensures p.Some? ==> p == sel
  {
    if ValidRow(rows, sel) then sel else None
  }

  /**
    The selection-changed handler. When the remembered row still exists,
    the new row's stored body is loaded into the buffer (read before any
    write, and passed to `set_text` with its JavaScript length, so only an
    ASCII body arrives whole) and the remembered row's chapter receives the
    old buffer text, the row's title and the row's flag under the field
    `included`. When the
    remembered row is gone nothing is flushed and the buffer is left alone.
    Either way the new selection is remembered. With a remembered row but
    no new selection, reading the missing row throws and nothing happens.
   */
  function SelectionChanged(s: Session, sel: Option<nat>): (r: Session)
    ensures !ValidRow(s.rows, s.previous) ==>
      && r.data == s.data && r.buffer == s.buffer && r.rows == s.rows
      && r.previous == Selected(s.rows, sel)
    ensures ValidRow(s.rows, s.previous) && !ValidRow(s.rows, sel) ==> r == s
    ensures Wf(s) && ValidRow(s.rows, s.previous) && ValidRow(s.rows, sel) ==>
      var prev := s.rows[s.previous.value];
      var next := s.rows[sel.value].id;
      && r.rows == s.rows
      && r.previous == sel
      && r.buffer == Loaded(s.data.chapters[next].body)
      && r.data == s.data.(chapters := r.data.chapters)
      && r.data.chapters.Keys == s.data.chapters.Keys
      && r.data.chapters[prev.id].body == s.buffer
      && r.data.chapters[prev.id].title == prev.title
      && r.data.chapters[prev.id].included == Some(prev.incl)
      && r.data.chapters[prev.id].incl == s.data.chapters[prev.id].incl
      && (forall k :: k in s.data.chapters && k != prev.id ==>
            r.data.chapters[k] == s.data.chapters[k])
    ensures r.counter == s.counter
    ensures r.editorEnabled == s.editorEnabled && r.deleteEnabled == s.deleteEnabled
    ensures Wf(s) ==> Wf(r)
  {
    if !ValidRow(s.rows, s.previous) then
      s.(previous := Selected(s.rows, sel))
    else if !ValidRow(s.rows, sel) || s.rows[sel.value].id !in s.data.chapters then
      s
    else
      var newText := Loaded(s.data.chapters[s.rows[sel.value].id].body);
      var prev := s.rows[s.previous.value];
      if prev.id !in s.data.chapters then
        s.(buffer := newText)
      else
        var flushed := s.data.chapters[prev.id].(
          title := prev.title, body := s.buffer, included := Some(prev.incl));
        s.(data := s.data.(chapters := s.data.chapters[prev.id := flushed]),
           buffer := newText,
           previous := sel)
  }

  /**
    A flush changes the total word count by the words of the buffer minus
    the words of the body it overwrites.
   */
  lemma FlushWordCount(s: Session, sel: Option<nat>)
    requires Wf(s) && ValidRow(s.rows, s.previous) && ValidRow(s.rows, sel)
    ensures var id := s.rows[s.previous.value].id;
      TotalWords(SelectionChanged(s, sel).data.chapters) + Words(s.data.chapters[id].body)
      == TotalWords(s.data.chapters) + Words(s.buffer)
  {
    var r := SelectionChanged(s, sel);
    var id := s.rows[s.previous.value].id;
    assert r.data.chapters == s.data.chapters[id := r.data.chapters[id]];
    TotalWordsUpdate(s.data.chapters, id, r.data.chapters[id]);
  }

  /**
    Switching from chapter A to chapter B and straight back to A stores the
    buffer as A's body and runs both bodies through the load: the buffer
    comes back, and B's body survives, exactly when that text is ASCII.
   */
  lemma SwitchAwayAndBack(s: Session, b: nat)
    requires Wf(s) && ValidRow(s.rows, s.previous) && b < |s.rows|
    requires s.rows[b].id != s.rows[s.previous.value].id
    ensures var r := SelectionChanged(SelectionChanged(s, Some(b)), s.previous);
      && r.buffer == Loaded(s.buffer)
      && r.previous == s.previous
      && r.data.chapters[s.rows[s.previous.value].id].body == s.buffer
      && r.data.chapters[s.rows[b].id].body == Loaded(s.data.chapters[s.rows[b].id].body)
    ensures var r := SelectionChanged(SelectionChanged(s, Some(b)), s.previous);
      && (r.buffer == s.buffer <==> IsAscii(s.buffer))
      && (r.data.chapters[s.rows[b].id].body == s.data.chapters[s.rows[b].id].body
          <==> IsAscii(s.data.chapters[s.rows[b].id].body))
  {
  }

  /**
    The new-chapter handler as the user sees it: the button appends the
    chapter and moves the cursor onto it, which raises selection-changed.
    With a remembered row, that row is flushed and the buffer is emptied
    for the new chapter; without one, the buffer keeps whatever it held.
   */
  function NewChapterSelected(s: Session, id: Id): (r: Session)
    requires id !in s.data.chapters
    ensures Wf(s) ==> Wf(r)
    ensures |r.rows| == |s.rows| + 1 && r.rows[|s.rows|].id == id
    ensures r.data.chapters.Keys == s.data.chapters.Keys + {id}
    ensures Wf(s) ==> r.previous == Some(|s.rows|)
    ensures Wf(s) && ValidRow(s.rows, s.previous) ==>
      r.buffer == "" && r.data.chapters[s.rows[s.previous.value].id].body == s.buffer
    ensures Wf(s) && !ValidRow(s.rows, s.previous) ==> r.buffer == s.buffer
  {
    SelectionChanged(NewChapter(s, id), Some(|s.rows|))
  }

  /** Deleting the middle one of three rows leaves the outer two, in order. */
  lemma DeleteMiddleOfThree(t: Session)
    requires |t.rows| == 3
    ensures RowIds(DeleteSelected(t, Some(1)).rows) == [t.rows[0].id, t.rows[2].id]
  {
    var kept := DeleteSelected(t, Some(1)).rows;
    assert |kept| == 2 && kept[0] == t.rows[0] && kept[1] == t.rows[2];
  }

  /**
    Creating three chapters and deleting the second leaves two rows, the
    first and the third, in that order, and all three chapters stored.
   */
  lemma CreateThreeDeleteSecond(s: Session, a: Id, b: Id, c: Id)
    requires |s.rows| == 0
    requires a !in s.data.chapters
    requires b !in s.data.chapters && b != a
    requires c !in s.data.chapters && c != a && c != b
    ensures var s3 := NewChapter(NewChapter(NewChapter(s, a), b), c);
      var r := DeleteSelected(s3, Some(1));
      && RowIds(r.rows) == [a, c]
      && r.data.chapters.Keys == s.data.chapters.Keys + {a, b, c}
  {
    var s1 := NewChapter(s, a);
    var s2 := NewChapter(s1, b);
    var s3 := NewChapter(s2, c);
    assert s1.rows[0].id == a;
    assert s2.rows[0] == s1.rows[0] && s2.rows[1].id == b;
    assert s3.rows[0] == s2.rows[0] && s3.rows[2].id == c;
    DeleteMiddleOfThree(s3);
  }
}

=== FILE: persistence.dfy ===
/**
  The document-level parts of saving and opening a project, with the file
  contents taken as the already-serialised (or already-parsed) document:
  `save` rebuilds `data.order` from the organizer and flushes the buffer into
  the selected chapter; `open` replaces `data` and rebuilds the organizer from
  `data.order`; the new-project dialog fills in the metadata and the file name.
 */
module Persistence {

  import opened Wrappers
  import opened Text
  import opened Manuscript
  import opened FileNames
  import opened TargetFilter

  /** What `save` leaves behind: the session, and the document written, if any. */
  datatype Saved = Saved(session: Session, written: Option<Document>)

  /**
    `save`: `data.order` becomes the id column of the organizer, top to
    bottom; then the selected chapter's body becomes the buffer text and
    `data` is written. Without a selected row, reading its id throws after
    the order was rebuilt, and nothing is written.
   */
  function Save(s: Session, sel: Option<nat>): (r: Saved)
    ensures r.session == s.(data := r.session.data)
    ensures r.session.data ==
      s.data.(order := r.session.data.order, chapters := r.session.data.chapters)
    ensures |r.session.data.order| == |s.rows|
    ensures forall i :: 0 <= i < |s.rows| ==> r.session.data.order[i] == s.rows[i].id
    ensures r.written.Some? ==> r.written.value == r.session.data
    ensures Wf(s) ==> (r.written.Some? <==> ValidRow(s.rows, sel))
    ensures Wf(s) && ValidRow(s.rows, sel) ==>
      var id := s.rows[sel.value].id;
      && r.session.data.chapters.Keys == s.data.chapters.Keys
      && r.session.data.chapters[id] == s.data.chapters[id].(body := s.buffer)
      && (forall k :: k in s.data.chapters && k != id ==>
            r.session.data.chapters[k] == s.data.chapters[k])
    ensures !ValidRow(s.rows, sel) ==> r.session.data.chapters == s.data.chapters
    ensures Wf(s) ==> Wf(r.session)
  {
    var ordered := s.(data := s.data.(order := RowIds(s.rows)));
    if ValidRow(s.rows, sel) && s.rows[sel.value].id in s.data.chapters then
      var id := s.rows[sel.value].id;
      var chapters := s.data.chapters[id := s.data.chapters[id].(body := s.buffer)];
      var flushed := ordered.(data := ordered.data.(chapters := chapters));
      Saved(flushed, Some(flushed.data))
    else
      Saved(ordered, None)
  }

  /** Saving again straight away writes the same document and changes nothing more. */
  lemma SaveIdempotent(s: Session, sel: Option<nat>)
    requires Wf(s)
    ensures Save(Save(s, sel).session, sel) == Save(s, sel)
  {
    var once := Save(s, sel);
    var twice := Save(once.session, sel);
    assert twice.session.data.order == once.session.data.order;
    if ValidRow(s.rows, sel) {
      var id := s.rows[sel.value].id;
      assert twice.session.data.chapters == once.session.data.chapters;
    }
  }

  /** Every id of `data.order` names a stored chapter. */
  predicate OrderResolves(d: Document)
  {
    forall i :: 0 <= i < |d.order| ==> d.order[i] in d.chapters
  }

  /** Organizer rows for the ids `order`, read from `chapters` (title and `include`). */
  function RowsFor(chapters: map<Id, Chapter>, order: seq<Id>): (rows: seq<Row>)
    requires forall i :: 0 <= i < |order| ==> order[i] in chapters
    ensures |rows| == |order|
    ensures forall i :: 0 <= i < |order| ==>
      rows[i] == Row(chapters[order[i]].title, chapters[order[i]].incl, order[i])
  {
    if |order| == 0 then []
    else
      [Row(chapters[order[0]].title, chapters[order[0]].incl, order[0])]
      + RowsFor(chapters, order[1..])
  }

  /**
    `open` once the chosen name passes the extension test and the file has
    been parsed into `loaded`: `data` is replaced, the organizer is cleared
    (so no remembered row survives) and refilled from `data.order`, and the
    editor is enabled exactly when some chapter is stored. The buffer is not
    touched. A name that fails the test changes nothing.
   */
  function Open(s: Session, filename: string, loaded: Document): (r: Session)
    requires IsNovelestFile(filename) ==> OrderResolves(loaded)
    ensures !IsNovelestFile(filename) ==> r == s
    ensures IsNovelestFile(filename) ==>
      && r.data == loaded
      && RowIds(r.rows) == loaded.order
      && (forall i :: 0 <= i < |r.rows| ==>
            r.rows[i].title == loaded.chapters[loaded.order[i]].title
            && r.rows[i].incl == loaded.chapters[loaded.order[i]].incl)
      && (r.editorEnabled <==> |loaded.chapters| > 0)
      && r.previous.None?
      && r.buffer == s.buffer
      && r.counter == s.counter && r.deleteEnabled == s.deleteEnabled
    ensures Wf(s) ==> Wf(r)
  {
    if IsNovelestFile(filename) then
      var rows := RowsFor(loaded.chapters, loaded.order);
      assert RowIds(rows) == loaded.order;
      s.(data := loaded, rows := rows, previous := None, editorEnabled := |loaded.chapters| > 0)
    else s
  }

  /**
    Saving and opening the written file gives back the organizer: the same
    ids in the same order, with the same titles, and the same document.
    The include flags come back from the chapters' `include` field.
   */
  lemma SaveThenOpen(s: Session, sel: Option<nat>, filename: string)
    requires Wf(s) && ValidRow(s.rows, sel) && IsNovelestFile(filename)
    ensures var saved := Save(s, sel);
      && saved.written.Some?
      && OrderResolves(saved.written.value)
      && var r := Open(saved.session, filename, saved.written.value);
      && r.data == saved.written.value
      && RowIds(r.rows) == RowIds(s.rows)
      && (forall i :: 0 <= i < |s.rows| ==> r.rows[i].title == s.rows[i].title)
      && (forall i :: 0 <= i < |s.rows| ==> r.rows[i].incl == s.data.chapters[s.rows[i].id].incl)
  {
    var saved := Save(s, sel);
    assert saved.written.Some?;
    var doc := saved.written.value;
    assert doc.order == RowIds(s.rows);
    assert doc.chapters.Keys == s.data.chapters.Keys;
    assert OrderResolves(doc);
    var r := Open(saved.session, filename, doc);
    assert RowIds(r.rows) == doc.order;
    forall i | 0 <= i < |s.rows|
      ensures r.rows[i].title == s.rows[i].title
      ensures r.rows[i].incl == s.data.chapters[s.rows[i].id].incl
    {
      var id := s.rows[i].id;
      assert doc.order[i] == id;
      assert doc.chapters[id].title == s.data.chapters[id].title;
      assert doc.chapters[id].incl == s.data.chapters[id].incl;
    }
  }

  /**
    Opening a document and saving it with a row selected writes the very
    same document back, provided the buffer holds that row's stored body.
   */
  /**
    A session whose rows spell the stored order and whose buffer holds the
    selected chapter's stored body writes back exactly its document.
   */
  lemma SaveWritesBack(s: Session, sel: Option<nat>)
    requires Wf(s) && ValidRow(s.rows, sel) && RowIds(s.rows) == s.data.order
    requires s.buffer == s.data.chapters[s.rows[sel.value].id].body
    ensures Save(s, sel).written == Some(s.data)
  {
    var saved := Save(s, sel);
    assert saved.session.data.order == s.data.order;
    assert saved.session.data.chapters == s.data.chapters;
  }

  lemma OpenThenSave(s: Session, filename: string, d: Document, sel: Option<nat>)
    requires Wf(s) && IsNovelestFile(filename) && OrderResolves(d)
    requires ValidRow(Open(s, filename, d).rows, sel)
    requires s.buffer == d.chapters[d.order[sel.value]].body
    ensures Save(Open(s, filename, d), sel).written == Some(d)
  {
    var o := Open(s, filename, d);
    assert o.rows[sel.value].id == d.order[sel.value];
    SaveWritesBack(o, sel);
  }

  /**
    The OK response of the new-project dialog: title and author are taken
    as typed, the target is `parseInt` of the target field, and the chosen
    file name gets the extension when it lacks it. The `save` that follows
    is `Save` above.
   */
  function NewProject(
    s: Session, title: string, author: string, targetField: string, chosen: string
  ): (r: Session)
    ensures r == s.(data := r.data)
    ensures r.data == s.data.(
      title := title, author := author, target := r.data.target, filename := r.data.filename)
    ensures IsNovelestFile(r.data.filename)
    ensures r.data.filename == chosen || r.data.filename == chosen + "." + Extension
    ensures r.data.filename == chosen <==> IsNovelestFile(chosen)
    ensures AllDigits(targetField) && |targetField| == 0 ==> r.data.target == NotANumber
    ensures AllDigits(targetField) && |targetField| > 0 ==>
      r.data.target == Goal(DigitsValue(targetField))
    ensures Wf(s) ==> Wf(r)
  {
    s.(data := s.data.(
      title := title, author := author,
      target := ParseTarget(targetField), filename := Normalize(chosen)))
  }

  /**
    Right after the dialog there is no organizer row yet, so the `save` it
    triggers stops before writing anything; the project file appears only
    on a later save with a chapter selected.
   */
  lemma NewProjectWritesNothing(
    s: Session, title: string, author: string, targetField: string, chosen: string,
    sel: Option<nat>)
    requires Wf(s) && |s.rows| == 0
    ensures Save(NewProject(s, title, author, targetField, chosen), sel).written.None?
  {
  }
}

=== FILE: targetfilter.dfy ===
/**
  The target-word-count field of the new-project dialog. Its `insert-text`
  handler stops every insertion whose text does not occur in the string
  "1234567890", and the dialog later reads the field with `parseInt`.
 */
module TargetFilter {

  import opened Wrappers
  import opened Text
  import opened Manuscript

  /** The haystack the handler searches, in keyboard order. */
  const Keys: string := "1234567890"

  /**
    `"1234567890".indexOf(text) >= 0`: the insertion is let through exactly
    when it occurs somewhere in the row of keys.
   */
  predicate Accepts(text: string)
    ensures Accepts(text) <==> exists j :: 0 <= j && OccursAt(Keys, text, j)
  {
    IndexOf(Keys, text) >= 0
  }

  /** Position of a digit on the keyboard row, or -1 for any other character. */
  function KeyPos(c: char): (p: int)
    ensures -1 <= p < 10
    ensures p >= 0 <==> IsDigit(c)
  {
    if '1' <= c <= '9' then c as int - '1' as int
    else if c == '0' then 9
    else -1
  }

  /**
    An independent description of the accepted texts: every character is a
    digit and each one is the keyboard-row successor of the one before it
    (so `0` can only come last and nothing follows it).
   */
  predicate IsKeyRun(t: string)
  {
    && (forall k :: 0 <= k < |t| ==> KeyPos(t[k]) >= 0)
    && (forall k :: 0 <= k < |t| - 1 ==> KeyPos(t[k + 1]) == KeyPos(t[k]) + 1)
  }

  /** Along a key run the keyboard positions climb by one per character. */
  lemma {:induction false} RunPositions(t: string, k: nat)
    requires IsKeyRun(t) && k < |t|
    ensures KeyPos(t[k]) == KeyPos(t[0]) + k
  {
    if k > 0 {
      RunPositions(t, k - 1);
    }
  }

  /** Whatever the filter accepts is a key run. */
  lemma AcceptedIsKeyRun(t: string)
    requires Accepts(t)
    ensures IsKeyRun(t)
  {
    var r := IndexOf(Keys, t);
    assert OccursAt(Keys, t, r);
    assert forall k :: 0 <= k < |t| ==> t[k] == Keys[r + k];
    assert forall j :: 0 <= j < |Keys| ==> KeyPos(Keys[j]) == j;
  }

  /** A non-empty key run sits in the row at its first key's position. */
  lemma KeyRunOccurs(t: string)
    requires IsKeyRun(t) && |t| > 0
    ensures KeyPos(t[0]) >= 0 && OccursAt(Keys, t, KeyPos(t[0]))
  {
    var i := KeyPos(t[0]);
    RunPositions(t, |t| - 1);
    forall k | 0 <= k < |t|
      ensures t[k] == Keys[i + k]
    {
      RunPositions(t, k);
      KeyOfPosition(t[k]);
    }
    assert Keys[i..i + |t|] == t;
  }

  /** Every key run is accepted: it occurs in the row at its first key's position. */
  lemma KeyRunIsAccepted(t: string)
    requires IsKeyRun(t)
    ensures Accepts(t)
  {
    if |t| == 0 {
      assert OccursAt(Keys, t, 0);
    } else {
      KeyRunOccurs(t);
    }
  }

  lemma KeyOfPosition(c: char)
    requires IsDigit(c)
    ensures Keys[KeyPos(c)] == c
  {
  }

  /** The filter accepts exactly the key runs. */
  lemma AcceptsIffKeyRun(t: string)
    ensures Accepts(t) <==> IsKeyRun(t)
  {
    if Accepts(t) {
      AcceptedIsKeyRun(t);
    }
    if IsKeyRun(t) {
      KeyRunIsAccepted(t);
    }
  }

  /** Every single digit passes and every single non-digit is stopped. */
  lemma AcceptsSingle(c: char)
    ensures Accepts([c]) <==> IsDigit(c)
  {
    AcceptsIffKeyRun([c]);
    assert [c][0] == c;
  }

  /** The empty insertion passes, and order matters: `90` passes, `09` does not. */
  lemma AcceptsExamples()
    ensures Accepts("")
    ensures Accepts("90")
    ensures !Accepts("09")
  {
    var empty, ninety, oh9 := "", "90", "09";
    AcceptsIffKeyRun(empty);
    AcceptsIffKeyRun(ninety);
    assert KeyPos(ninety[1]) == KeyPos(ninety[0]) + 1;
    AcceptsIffKeyRun(oh9);
    assert KeyPos(oh9[1]) != KeyPos(oh9[0]) + 1;
  }

  /** A text the filter lets through is made of digits only. */
  lemma AcceptedIsDigits(t: string)
    requires Accepts(t)
    ensures AllDigits(t)
  {
    AcceptsIffKeyRun(t);
  }

  /** A user edit of the field: typing or pasting `text` at `pos`, or deleting a range. */
  datatype Edit = Insert(pos: nat, text: string) | Delete(start: nat, end: nat)

  /** The field after one edit; a stopped insertion leaves it as it was. */
  function ApplyEdit(field: string, e: Edit): (r: string)
    ensures e.Insert? && Accepts(e.text) && e.pos <= |field| ==>
      && |r| == |field| + |e.text|
      && r[..e.pos] == field[..e.pos]
      && r[e.pos..e.pos + |e.text|] == e.text
      && r[e.pos + |e.text|..] == field[e.pos..]
    ensures e.Insert? && (!Accepts(e.text) || e.pos > |field|) ==> r == field
    ensures e.Delete? && e.start <= e.end <= |field| ==>
      && |r| == |field| - (e.end - e.start)
      && r[..e.start] == field[..e.start]
      && r[e.start..] == field[e.end..]
    ensures e.Delete? && !(e.start <= e.end <= |field|) ==> r == field
    ensures AllDigits(field) ==> AllDigits(r)
  {
    match e
    case Insert(pos, text) =>
      if Accepts(text) && pos <= |field| then
        AcceptedIsDigits(text);
        SpliceDigits(field, pos, pos, text);
        var r := field[..pos] + text + field[pos..];
        assert r[..pos] == field[..pos];
        assert r[pos..pos + |text|] == text;
        assert r[pos + |text|..] == field[pos..];
        r
      else field
    case Delete(start, end) =>
      if start <= end <= |field| then
        SpliceDigits(field, start, end, "");
        assert field[..start] + "" + field[end..] == field[..start] + field[end..];
        var r := field[..start] + field[end..];
        assert r[..start] == field[..start] && r[start..] == field[end..];
        r
      else field
  }

  /** Replacing a slice of a digit field by digits leaves digits. */
  lemma SpliceDigits(field: string, start: nat, end: nat, text: string)
    requires start <= end <= |field| && AllDigits(text)
    ensures AllDigits(field) ==> AllDigits(field[..start] + text + field[end..])
  {
    if AllDigits(field) {
      var r := field[..start] + text + field[end..];
      forall i | 0 <= i < |r|
        ensures IsDigit(r[i])
      {
        if i < start {
          assert r[i] == field[i];
        } else if i < start + |text| {
          assert r[i] == text[i - start];
        } else {
          assert r[i] == field[end + i - start - |text|];
        }
      }
    }
  }

  /** The field after a sequence of edits, in order. */
  function ApplyEdits(field: string, edits: seq<Edit>): string
    decreases |edits|
  {
    if |edits| == 0 then field
    else ApplyEdits(ApplyEdit(field, edits[0]), edits[1..])
  }

  /** `parseInt` of the field, stored as the project target. */
  function ParseTarget(text: string): (t: Target)
    ensures t.Goal? || t == NotANumber
    ensures AllDigits(text) ==> (t == NotANumber <==> |text| == 0)
    ensures AllDigits(text) && |text| > 0 ==> t == Goal(DigitsValue(text))
  {
    match ParseInt(text)
    case None => NotANumber
    case Some(n) => Goal(n)
  }

  /**
    Whatever the user types, pastes or deletes, the field starting empty only
    ever holds digits, so the target read from it is NaN exactly when the
    field is empty and otherwise the decimal value of the field.
   */
  lemma {:induction false} FieldStaysDigits(field: string, edits: seq<Edit>)
    requires AllDigits(field)
    ensures AllDigits(ApplyEdits(field, edits))
    ensures var t := ParseTarget(ApplyEdits(field, edits));
      t == NotANumber <==> |ApplyEdits(field, edits)| == 0
    decreases |edits|
  {
    if |edits| > 0 {
      FieldStaysDigits(ApplyEdit(field, edits[0]), edits[1..]);
    }
  }

  /** The target the dialog stores reads back every number typed in decimal. */
  lemma ParseTargetOfNumber(n: nat)
    ensures ParseTarget(NatToString(n)) == Goal(n)
  {
    ParseIntOfNatToString(n);
  }
}

=== FILE: text.dfy ===
/**
  String primitives the window code borrows from JavaScript: `split` on a
  one-character separator, `indexOf`, decimal formatting of a number inside a
  template literal, and `parseInt` on the text of the target field.
 */
module Text {

  import opened Wrappers

  /** Number of occurrences of `c` in `s`. */
  function Count(s: string, c: char): (n: nat)
    ensures n <= |s|
    ensures n == 0 <==> c !in s
  {
    if |s| == 0 then 0
    else (if s[0] == c then 1 else 0) + Count(s[1..], c)
  }

  /**
    The pieces of `s` between occurrences of `sep`, as `s.split(sep)` returns
    them for a one-character separator: the empty string splits into one empty
    piece, and every separator opens a new piece.
   */
  function Split(s: string, sep: char): (pieces: seq<string>)
    ensures |pieces| == Count(s, sep) + 1
    ensures forall i :: 0 <= i < |pieces| ==> sep !in pieces[i]
  {
    if |s| == 0 then [""]
    else
      var rest := Split(s[1..], sep);
      if s[0] == sep then [""] + rest
      else [[s[0]] + rest[0]] + rest[1..]
  }

  /** The inverse of `Split`: the pieces glued back with `sep` between them. */
  function Join(pieces: seq<string>, sep: char): string
    requires |pieces| >= 1
  {
    if |pieces| == 1 then pieces[0]
    else pieces[0] + [sep] + Join(pieces[1..], sep)
  }

  /** Splitting and joining again gives back the original string. */
  lemma {:induction false} JoinSplit(s: string, sep: char)
    ensures Join(Split(s, sep), sep) == s
  {
    if |s| > 0 {
      var tail := s[1..];
      var rest := Split(tail, sep);
      JoinSplit(tail, sep);
      assert s == [s[0]] + tail;
      if s[0] == sep {
        var pieces := [""] + rest;
        assert Split(s, sep) == pieces;
        assert pieces[1..] == rest;
        assert Join(pieces, sep) == "" + [sep] + Join(rest, sep);
      } else {
        var first := [s[0]] + rest[0];
        var pieces := [first] + rest[1..];
        assert Split(s, sep) == pieces;
        if |rest| > 1 {
          var more := Join(rest[1..], sep);
          assert pieces[1..] == rest[1..];
          assert Join(pieces, sep) == first + [sep] + more;
          assert Join(rest, sep) == rest[0] + [sep] + more;
          assert first + [sep] + more == [s[0]] + (rest[0] + [sep] + more);
        }
      }
    }
  }

  /** `SplitWithoutSeparator` stated for every string, as a fact about the absent case. */
  lemma SplitWhenSeparatorAbsent(s: string, sep: char)
    ensures sep !in s ==> Split(s, sep) == [s]
  {
    if sep !in s {
      SplitWithoutSeparator(s, sep);
    }
  }

  /** A string without the separator splits into itself alone. */
  lemma {:induction false} SplitWithoutSeparator(s: string, sep: char)
    requires sep !in s
    ensures Split(s, sep) == [s]
  {
    if |s| > 0 {
      assert sep !in s[1..] by {
        assert forall k :: 0 <= k < |s[1..]| ==> s[1..][k] == s[k + 1];
      }
      SplitWithoutSeparator(s[1..], sep);
      assert [s[0]] + s[1..] == s;
    }
  }

  /** A separator-free prefix followed by the separator becomes the first piece. */
  lemma {:induction false} SplitAfterPiece(x: string, y: string, sep: char)
    requires sep !in x
    ensures Split(x + [sep] + y, sep) == [x] + Split(y, sep)
  {
    var s := x + [sep] + y;
    if |x| == 0 {
      assert s[1..] == y;
    } else {
      assert s[1..] == x[1..] + [sep] + y;
      assert sep !in x[1..] by {
        assert forall k :: 0 <= k < |x[1..]| ==> x[1..][k] == x[k + 1];
      }
      SplitAfterPiece(x[1..], y, sep);
      assert [x[0]] + x[1..] == x;
    }
  }

  /** Joining separator-free pieces and splitting again gives back the pieces. */
  lemma {:induction false} SplitJoin(pieces: seq<string>, sep: char)
    requires |pieces| >= 1
    requires forall i :: 0 <= i < |pieces| ==> sep !in pieces[i]
    ensures Split(Join(pieces, sep), sep) == pieces
  {
    if |pieces| == 1 {
      SplitWithoutSeparator(pieces[0], sep);
    } else {
      SplitJoin(pieces[1..], sep);
      SplitAfterPiece(pieces[0], Join(pieces[1..], sep), sep);
      assert [pieces[0]] + pieces[1..] == pieces;
    }
  }

  /**
    The text after the last `sep` of `s`, or all of `s` when it has none:
    the last element of `s.split(sep)`.
   */
  function LastPiece(s: string, sep: char): (l: string)
    ensures sep !in l
    ensures sep !in s ==> l == s
  {
    SplitWhenSeparatorAbsent(s, sep);
    var pieces := Split(s, sep);
    pieces[|pieces| - 1]
  }

  /** `l` is a separator-free suffix of `s` preceded by `sep` or by nothing. */
  predicate IsFinalPiece(s: string, sep: char, l: string)
  {
    && |l| <= |s|
    && l == s[|s| - |l|..]
    && sep !in l
    && (|l| < |s| ==> s[|s| - |l| - 1] == sep)
  }

  lemma FinalPieceOfTail(s: string, sep: char, l: string)
    requires |s| > 0
    requires IsFinalPiece(s[1..], sep, l)
    requires |l| < |s| - 1 || s[0] == sep
    ensures IsFinalPiece(s, sep, l)
  {
    var k := |s| - |l|;
    assert s[k..] == s[1..][k - 1..];
    if k >= 2 {
      assert s[k - 1] == s[1..][k - 2];
    }
  }

  /**
    The last piece is the longest separator-free suffix: it is a suffix
    without `sep`, and the character just before it, if any, is `sep`.
   */
  lemma {:induction false} LastPieceIsSuffix(s: string, sep: char)
    ensures IsFinalPiece(s, sep, LastPiece(s, sep))
  {
    if |s| > 0 {
      var tail := s[1..];
      var rest := Split(tail, sep);
      LastPieceIsSuffix(tail, sep);
      var l := LastPiece(tail, sep);
      if s[0] != sep && |rest| == 1 {
        JoinSplit(tail, sep);
        assert Split(s, sep) == [[s[0]] + rest[0]];
        assert LastPiece(s, sep) == s;
      } else {
        if s[0] == sep {
          assert Split(s, sep) == [""] + rest;
        } else {
          assert Split(s, sep) == [[s[0]] + rest[0]] + rest[1..];
          assert |l| == |tail| ==> l == tail;
          assert |l| < |tail|;
        }
        assert LastPiece(s, sep) == l;
        FinalPieceOfTail(s, sep, l);
      }
    }
  }

  /** A string has only one final piece, so any final piece is the last piece. */
  lemma LastPieceUnique(s: string, sep: char, l: string)
    requires IsFinalPiece(s, sep, l)
    ensures LastPiece(s, sep) == l
  {
    LastPieceIsSuffix(s, sep);
    var m := LastPiece(s, sep);
    assert forall j :: |s| - |l| <= j < |s| ==> s[j] == l[j - (|s| - |l|)];
    assert forall j :: |s| - |m| <= j < |s| ==> s[j] == m[j - (|s| - |m|)];
    assert |l| == |m|;
  }

  /** Whatever precedes the last separator, the piece after it is the last piece. */
  lemma LastPieceAfterSeparator(x: string, sep: char, y: string)
    requires sep !in y
    ensures LastPiece(x + [sep] + y, sep) == y
  {
    var s := x + [sep] + y;
    assert s[|s| - |y|..] == y;
    assert s[|s| - |y| - 1] == sep;
    LastPieceUnique(s, sep, y);
  }

  /** Whether `s` ends with `suffix`. */
  predicate EndsWith(s: string, suffix: string)
  {
    |suffix| <= |s| && s[|s| - |suffix|..] == suffix
  }

  /** The decimal digit characters. */
  predicate IsDigit(c: char)
  {
    '0' <= c <= '9'
  }

  predicate AllDigits(s: string)
  {
    forall i :: 0 <= i < |s| ==> IsDigit(s[i])
  }

  function DigitChar(d: nat): (c: char)
    requires d < 10
    ensures IsDigit(c)
  {
    ('0' as int + d) as char
  }

  function DigitValue(c: char): (d: nat)
    requires IsDigit(c)
    ensures d < 10
    ensures DigitChar(d) == c
  {
    (c as int - '0' as int) as nat
  }

  /** Value of a string of decimal digits, most significant first. */
  function DigitsValue(s: string): nat
    requires AllDigits(s)
  {
    if |s| == 0 then 0
    else DigitsValue(s[..|s| - 1]) * 10 + DigitValue(s[|s| - 1])
  }

  /**
    The decimal spelling of `n`, as `${n}` inside a template literal writes
    it for every `n` below 10^21 (larger numbers are written in exponent form).
   */
  function NatToString(n: nat): (s: string)
    ensures |s| >= 1
    ensures AllDigits(s)
    ensures s[0] == '0' <==> n == 0
    ensures |s| > 1 ==> s[0] != '0'
  {
    if n < 10 then [DigitChar(n)]
    else NatToString(n / 10) + [DigitChar(n % 10)]
  }

  /** The longest prefix of `s` made of decimal digits. */
  function LeadingDigits(s: string): (p: string)
    ensures |p| <= |s| && p == s[..|p|]
    ensures AllDigits(p)
    ensures |p| < |s| ==> !IsDigit(s[|p|])
  {
    if |s| == 0 || !IsDigit(s[0]) then ""
    else [s[0]] + LeadingDigits(s[1..])
  }

  /**
    `parseInt(s)` in base ten, for text that is empty or starts with a digit
    (the only texts the target field can hold): the value of the leading run
    of digits, or `None` (JavaScript's NaN) when there is none. Leading
    whitespace and signs, which `parseInt` would skip or read, are not modelled.
   */
  function ParseInt(s: string): (r: Option<nat>)
    ensures r.Some? <==> |s| > 0 && IsDigit(s[0])
    ensures AllDigits(s) && |s| > 0 ==> r == Some(DigitsValue(s))
  {
    var p := LeadingDigits(s);
    if |p| == 0 then None
    else
      assert AllDigits(s) ==> p == s;
      Some(DigitsValue(p))
  }

  lemma {:induction false} DigitsValueOfNatToString(n: nat)
    ensures DigitsValue(NatToString(n)) == n
  {
    if n >= 10 {
      DigitsValueOfNatToString(n / 10);
      var s := NatToString(n);
      var d := n % 10;
      assert s == NatToString(n / 10) + [DigitChar(d)];
      assert s[..|s| - 1] == NatToString(n / 10);
      assert DigitValue(s[|s| - 1]) == d;
      assert DigitsValue(s) == DigitsValue(NatToString(n / 10)) * 10 + d;
    }
  }

  /** `parseInt` reads back every number that `NatToString` writes. */
  lemma ParseIntOfNatToString(n: nat)
    ensures ParseInt(NatToString(n)) == Some(n)
  {
    DigitsValueOfNatToString(n);
  }

  /** Distinct numbers have distinct decimal spellings. */
  lemma NatToStringInjective(m: nat, n: nat)
    requires m != n
    ensures NatToString(m) != NatToString(n)
  {
    ParseIntOfNatToString(m);
    ParseIntOfNatToString(n);
  }

  /** Whether `needle` occurs in `hay` starting at position `j`. */
  predicate OccursAt(hay: string, needle: string, j: int)
  {
    0 <= j && j + |needle| <= |hay| && hay[j..j + |needle|] == needle
  }

  /**
    The search behind `hay.indexOf(needle, from)` for `from <= |hay|`: the
    least position at or after `from` where `needle` occurs in `hay`, or -1
    when it occurs nowhere there. (JavaScript clamps a larger `from` to
    `|hay|`, so an empty needle is found there; only `from = 0` is used.)
   */
  function IndexOfFrom(hay: string, needle: string, from: nat): (r: int)
    ensures r == -1 || (from <= r && OccursAt(hay, needle, r))
    ensures r == -1 <==> forall j :: from <= j ==> !OccursAt(hay, needle, j)
    ensures r >= 0 ==> forall j :: from <= j < r ==> !OccursAt(hay, needle, j)
    decreases |hay| - from
  {
    if from + |needle| > |hay| then -1
    else if hay[from..from + |needle|] == needle then from
    else IndexOfFrom(hay, needle, from + 1)
  }

  /** `hay.indexOf(needle)`: the first occurrence of `needle`, or -1 when there is none. */
  function IndexOf(hay: string, needle: string): (r: int)
    ensures r == -1 || OccursAt(hay, needle, r)
    ensures r == -1 <==> forall j :: 0 <= j ==> !OccursAt(hay, needle, j)
    ensures r >= 0 ==> forall j :: 0 <= j < r ==> !OccursAt(hay, needle, j)
  {
    IndexOfFrom(hay, needle, 0)
  }
}

=== FILE: wordcount.dfy ===
/**
  The word count behind the progress bar: each chapter body counts as the
  number of pieces `body.split(" ")` yields, an empty body counts 0, and the
  total runs over every stored chapter.
 */
module WordCount {

  import opened Text
  import opened Manuscript

  /** Words in one chapter body. */
  function Words(body: string): (n: nat)
    ensures n == 0 <==> |body| == 0
    ensures |body| > 0 ==> n == Count(body, ' ') + 1
  {
    if |body| == 0 then 0 else |Split(body, ' ')|
  }

  /** Joining `k` space-free words with single spaces gives a body of `k` words. */
  lemma WordsOfJoin(words: seq<string>)
    requires |words| >= 1
    requires forall i :: 0 <= i < |words| ==> ' ' !in words[i]
    requires |Join(words, ' ')| > 0
    ensures Words(Join(words, ' ')) == |words|
  {
    SplitJoin(words, ' ');
  }

  /** The literal split semantics: a lone space is two words, and so is `a b`. */
  lemma WordsExamples(a: char, b: char)
    requires a != ' ' && b != ' '
    ensures Words("") == 0
    ensures Words(" ") == 2
    ensures Words([a, ' ', b]) == 2
    ensures Words([a, ' ', ' ', b]) == 3
  {
    var one, two, three := " ", [a, ' ', b], [a, ' ', ' ', b];
    assert Count(one[1..], ' ') == 0;
    assert Count(two[2..], ' ') == 0;
    assert Count(two[1..], ' ') == 1;
    assert Count(three[3..], ' ') == 0;
    assert Count(three[2..], ' ') == 1;
    assert Count(three[1..], ' ') == 2;
  }

  /** Sum of the words of the chapters with the given ids. */
  ghost function SumWords(chapters: map<Id, Chapter>, ids: set<Id>): nat
    requires ids <= chapters.Keys
    decreases ids
  {
    if ids == {} then 0
    else
      var id :| id in ids;
      Words(chapters[id].body) + SumWords(chapters, ids - {id})
  }

  /** The total over every key of `data.chapters`, whatever the organizer shows. */
  ghost function TotalWords(chapters: map<Id, Chapter>): nat
  {
    SumWords(chapters, chapters.Keys)
  }

  /** Any chapter may be taken out of the sum first. */
  lemma {:induction false} SumWordsRemove(chapters: map<Id, Chapter>, ids: set<Id>, id: Id)
    requires ids <= chapters.Keys && id in ids
    ensures SumWords(chapters, ids) == Words(chapters[id].body) + SumWords(chapters, ids - {id})
    decreases ids
  {
    var y :| y in ids &&
      SumWords(chapters, ids) == Words(chapters[y].body) + SumWords(chapters, ids - {y});
    if y != id {
      SumWordsRemove(chapters, ids - {y}, id);
      SumWordsRemove(chapters, ids - {id}, y);
      assert ids - {y} - {id} == ids - {id} - {y};
    }
  }

  /** The sum depends on the bodies of the summed chapters only. */
  lemma {:induction false} SumWordsAgree(m1: map<Id, Chapter>, m2: map<Id, Chapter>, ids: set<Id>)
    requires ids <= m1.Keys && ids <= m2.Keys
    requires forall id :: id in ids ==> m1[id].body == m2[id].body
    ensures SumWords(m1, ids) == SumWords(m2, ids)
    decreases ids
  {
    if ids != {} {
      var id :| id in ids;
      SumWordsRemove(m1, ids, id);
      SumWordsRemove(m2, ids, id);
      SumWordsAgree(m1, m2, ids - {id});
    }
  }

  /**
    Storing chapter `c` under `id` changes the total by the words of `c`
    minus the words of the body it replaces (none for a new id).
   */
  lemma TotalWordsUpdate(chapters: map<Id, Chapter>, id: Id, c: Chapter)
    ensures id in chapters ==>
      TotalWords(chapters[id := c]) + Words(chapters[id].body)
        == TotalWords(chapters) + Words(c.body)
    ensures id !in chapters ==>
      TotalWords(chapters[id := c]) == TotalWords(chapters) + Words(c.body)
  {
    var m := chapters[id := c];
    var others := chapters.Keys - {id};
    SumWordsRemove(m, m.Keys, id);
    assert m.Keys - {id} == others;
    SumWordsAgree(m, chapters, others);
    if id in chapters {
      SumWordsRemove(chapters, chapters.Keys, id);
    } else {
      assert chapters.Keys == others;
    }
  }

  /** Every stored chapter contributes its words to the total. */
  lemma {:induction false} SumWordsCovers(chapters: map<Id, Chapter>, ids: set<Id>, id: Id)
    requires ids <= chapters.Keys && id in ids
    ensures Words(chapters[id].body) <= SumWords(chapters, ids)
  {
    SumWordsRemove(chapters, ids, id);
  }

  /**
    `getWordCount`: visits every key of `data.chapters` once and adds the
    words of its body.
   */
  method TotalWordCount(chapters: map<Id, Chapter>) returns (n: nat)
    ensures n == TotalWords(chapters)
    ensures forall id :: id in chapters ==> Words(chapters[id].body) <= n
  {
    n := 0;
    var remaining := chapters.Keys;
    while remaining != {}
      invariant remaining <= chapters.Keys
      invariant n + SumWords(chapters, remaining) == TotalWords(chapters)
      decreases remaining
    {
      var id :| id in remaining;
      SumWordsRemove(chapters, remaining, id);
      n := n + Words(chapters[id].body);
      remaining := remaining - {id};
    }
    forall id | id in chapters
      ensures Words(chapters[id].body) <= n
    {
      SumWordsCovers(chapters, chapters.Keys, id);
    }
  }
}

=== FILE: wrappers.dfy ===
/** Optional values: a JavaScript `undefined` or a missing selection is `None`. */
module Wrappers {

  datatype Option<+T> = None | Some(value: T)
}
